=== FILE: README.md ===
# Inventory admin client — a Dafny model of its core

This project models the client-side core of the inventory administration web
app: the products list screen, the request helpers it uses, the authenticated
request gateway with token refresh, the account endpoints, the sign-in,
sign-up and forgot-password pages, the dashboard shell and the shared e-mail
pattern. Each handler becomes a pure function from the page's state, the
browser storage (a `map<string, string>`) and the server's replies to the new
state, the storage afterwards and the requests sent. The module layout follows
the source:

- `numbers.dfy`, `text.dfy` and `json.dfy` give the JavaScript semantics the
  code relies on. They cover `Number(s)`, `String(n)`, NaN arithmetic,
  `trim`, `toUpperCase`, `indexOf`, `replace`, property reads, `??`,
  truthiness and `JSON.stringify`.
- `session.dfy` models the token storage.
- `http.dfy` models requests, replies and thrown values.
- `reauth.dfy` models `lib/baseQuery.ts`.
- `auth_api.dfy` models `lib/auth-api.ts`.
- `auth_endpoints.dfy` models `app/login/_service/authApi.ts`.
- `products_api.dfy` models `lib/products-api.ts`.
- `products_page.dfy` and `products_pager.dfy` model
  `app/dashboard/products/page.tsx`.
- `login_page.dfy`, `register_page.dfy` and `forgot_password_page.dfy` model
  the three login-area pages.
- `dashboard_layout.dfy` models `app/dashboard/layout.tsx`.
- `email.dfy` models the e-mail regular expression.

The model follows the code as written, with one repair. Two mismatches in the
code are kept as they are:

- The register page passes the organization name and code as a second
  argument to `registerWithOrganization`. That function takes one argument,
  so the organization never reaches the server (`RegisterPage.OrganizationNotSent`).
- The pagination flags `hasPreviousPage`/`hasNextPage` are copied from the
  response and never derived from the page numbers
  (`ProductsApi.FlagsAreNotDerived`). The "previous"/"next" buttons are
  enabled by these flags alone.

The repair: `lib/products-api.ts` imports `getApiUrl` and `getToken` from
`lib/auth-api.ts`, but that file declares both without exporting them. As
written, the import does not resolve, so every helper of `lib/products-api.ts`
would throw a TypeError before sending anything (`ProductsApi.Invoke` with `Unresolved`).
The model binds the two names to the declarations in `lib/auth-api.ts` and
models the helpers as they were evidently meant to work. "## Findings"
records the mismatch, and "## Left out" names the members it affects.

Other modelling choices:

- JavaScript numbers are `Finite(real) | NaN`. The reals are exact: rounding
  to the nearest double, and with it `-0`, is not modelled.
- `Number(text)` is a decimal parser.
- `String(n)` is exact for whole numbers below 10^21 in magnitude. For other
  numbers it is "some text that `Number` reads back as `n`".
- Network replies are parameters. The RTK gateway receives a script of
  replies, one per request it sends.
- A reply's headers are a map keyed by the names the code asks for
  (`Authorization`, `RefreshToken`). `Headers.get` ignores case, and fetch
  reports header names in lower case. The map therefore stands for what
  `get` returns for each name, not for the names as they came over the wire.
- Lengths are JavaScript's `.length`, counted in UTF-16 code units
  (`Text.Utf16Length`): a character outside the Basic Multilingual Plane
  counts as two.

## Model

| member | source | states |
|---|---|---|
| Numbers.ParseNumber | app/dashboard/products/page.tsx:149-152 | `Number(text)` is finite exactly when the text is blank or a signed decimal after trimming; blank text is 0; a signed decimal reads as the exact value its digits and point denote, negated after a leading minus |
| Numbers.PointSeparatesWholePart | app/dashboard/products/page.tsx:149-150 | a decimal with a point denotes at least its digits before the point and less than one more: the digits after the point are a fraction, since k digits are worth less than 10^k |
| Numbers.ParseUnsigned | app/dashboard/products/page.tsx:149-150 | unsigned decimal text has a value exactly when it is digits with at most one dot and at least one digit; that value is the one the digits denote with the point in place ("12.5" is 12.5), never negative |
| Numbers.DenotesUnique | app/dashboard/products/page.tsx:149-150 | decimal text denotes at most one value, so the value `Number` gives is the only one it could give |
| Numbers.IntToStringRoundTrip | app/dashboard/products/page.tsx:131-132 | `Number(String(i))` gives back `i` for every integer |
| Numbers.NumberToString | app/dashboard/products/page.tsx:131-132 | `String(n)` prints whole numbers below 10^21 in magnitude as their decimal digits, and yields text that `Number` reads back as `n` whenever some text does |
| Text.Trim | app/dashboard/products/page.tsx:147-148 | the result is the input with its leading and trailing white space removed: a slice of the input with only white space on either side, starting and ending with a non-space; empty exactly when the input is all white space |
| Text.TrimUnique | app/dashboard/products/page.tsx:147-148 | any slice of the input with only white space around it and non-space ends is the trimmed text, so trimming is determined by that description |
| Text.Utf16Length | app/login/register/page.tsx:33-40 | `.length` counts at least one and at most two units per character, and exactly one per character of the Basic Multilingual Plane |
| Text.Utf16LengthOfEmoji | app/login/register/page.tsx:37 | three emoji are three characters but six units, so they pass a six-character minimum |
| Text.IndexOf | lib/baseQuery.ts:33 | the index returned is the first occurrence of the pattern; no index at all means it occurs nowhere |
| Text.ReplaceFirst | lib/baseQuery.ts:33 | a string pattern replaces only its first occurrence: the text before it, then the replacement, then the text after it; where the pattern occurs nowhere the text is unchanged |
| Session.SaveToken | lib/baseQuery.ts:31-34 | in a browser only the `token` key changes; a token without "Bearer " is stored verbatim, one with it loses exactly those seven characters; on the server nothing changes |
| Session.SaveTokenStripsScheme | lib/auth-api.ts:26-29 | a header value "Bearer t" is stored as `t` |
| Session.SaveRefreshToken | lib/baseQuery.ts:39-42 | the refresh token is stored verbatim under `refreshToken` and nothing else changes |
| Session.SaveUser | lib/auth-api.ts:36-39 | the user is stored as its JSON text under `user` and nothing else changes |
| Session.ClearSession | lib/auth-api.ts:41-46 | in a browser exactly the keys `token`, `refreshToken` and `user` disappear and every other entry survives; on the server nothing changes |
| Session.ClearSessionClears | lib/baseQuery.ts:47-52 | after clearing, no session key is left |
| Session.GetToken | lib/baseQuery.ts:23-26 | the token is the `token` entry of the browser storage, and there is none on the server |
| Session.BearerHeaders | lib/baseQuery.ts:59-66 | the JSON content type is always sent; `Authorization: Bearer <token>` is sent exactly when a non-empty token is stored; nothing else is sent |
| Session.SaveTokenHeaders | lib/baseQuery.ts:76-86 | in a browser a non-empty `Authorization` header replaces the stored token (scheme stripped) and a non-empty `RefreshToken` header replaces the refresh token; without that header the refresh token is kept as it was; all other keys are untouched; on the server nothing changes |
| Session.SaveTokenHeadersIdempotent | lib/baseQuery.ts:76-86 | storing the same reply's token headers twice equals storing them once |
| Reauth.WithReauth | lib/baseQuery.ts:72-141 | one call sends the original request, then at most one refresh and at most one replay. Token headers of the first response are stored first. A non-401 result is returned as is. A 401 refreshes only with a stored refresh token. A granted refresh saves the new tokens and replays with them. Every other 401 path clears the session and redirects in a browser |
| Reauth.Capture | lib/baseQuery.ts:76-86 | the token headers of a response are stored whatever its status; no response stores nothing |
| Reauth.Granted | lib/baseQuery.ts:106-110 | a refresh counts as granted when its reply has a response with a non-empty `Authorization` header; the refresh's status is not looked at |
| Reauth.SaveRefreshed | lib/baseQuery.ts:110-114 | a granted refresh stores the new token, and the new refresh token only when one came with it |
| Reauth.RefreshRequestShape | lib/baseQuery.ts:94-104 | the refresh is a POST to /account/refresh whose body carries a non-empty refresh token |
| Reauth.RefreshUsesCapturedToken | lib/baseQuery.ts:76-96 | a refresh token that arrived on the 401 response itself is the one used to refresh |
| Reauth.ReplayUsesNewToken | lib/baseQuery.ts:110-116 | after a granted refresh the stored token is the new one, and the replay carries it |
| Reauth.NoRefreshTokenClears | lib/baseQuery.ts:131-137 | a 401 whose response carries no refresh token, with none stored, sends nothing more, empties the session and redirects |
| Reauth.ReplayedUnauthorizedIsFinal | lib/baseQuery.ts:115-140 | a 401 on the replay reaches the caller: no second refresh and no redirect |
| AuthApi.GetApiUrl | lib/auth-api.ts:13-19 | the base URL is "/api" in a production browser, else the configured variable, else the fixed backend URL |
| AuthApi.Login | lib/auth-api.ts:48-75 | one POST to /account/login. Token headers are stored before the status is read. Success requires a 2xx status with a truthy `data ?? result`, which is returned and stored as the user. A failed status throws the body's message, or the 401 text, or the generic text. A 2xx `null` body throws a TypeError and a falsy `data ?? result` throws "Respuesta inválida del servidor.". Non-JSON throws a SyntaxError and a network failure a TypeError. A failure leaves the stored user as it was |
| AuthApi.FailedLoginKeepsTokens | lib/auth-api.ts:58-68 | a rejected login still stores the token its response carried |
| AuthApi.Register | lib/auth-api.ts:77-96 | one POST to /account/register; storage is untouched; success iff 2xx; a failure throws the body's message, or "Error al registrar." without one; a network failure throws a TypeError |
| AuthApi.CreateOrganization | lib/auth-api.ts:98-115 | one authenticated POST of `{Name, Code}`; returns `data`, or the whole body when `data` is absent or null; a failure throws the body's message or the fixed text; non-JSON throws a SyntaxError; a 2xx `null` body or a network failure throws a TypeError |
| AuthApi.SignUpJsonKeys | app/login/register/page.tsx:78-88 | the sign-up body holds only the form's fields, and `phone` only when one was typed |
| AuthApi.RegisterWithOrganization | lib/auth-api.ts:117-130 | a successful registration is followed by exactly one login with the same credentials, whose outcome is returned; a failed one sends nothing more, leaves storage alone and throws the body's message or "Error al registrar." |
| AuthApi.RegistrationFailuresAgree | lib/auth-api.ts:92-95 | for the same failing reply, `register` and `registerWithOrganization` throw the same error and leave storage alone |
| AuthEndpoints.Query | app/login/_service/authApi.ts:27-94 | every mutation POSTs to its own path; bodies pass through, except that the organization is renamed to `{Name, Code}` |
| AuthEndpoints.PathsDistinct | app/login/_service/authApi.ts:27-94 | no two mutations share a path |
| AuthEndpoints.RefreshEndpointMatchesGateway | app/login/_service/authApi.ts:69-75 | the explicit refresh mutation builds the same request the gateway uses |
| AuthEndpoints.Mutate | app/login/_service/authApi.ts:23-26 | every mutation goes through the gateway: its first request is the POST to the endpoint's path with the bearer headers |
| AuthEndpoints.LoginUnauthorizedEntersReauth | app/login/_service/authApi.ts:28-35 | a 401 on login itself triggers the refresh-and-replay or the clear-and-redirect path |
| AuthEndpoints.Logout | app/login/_service/authApi.ts:77-87 | logout sends no request and empties exactly the session keys |
| AuthEndpoints.LogoutIdempotent | app/login/_service/authApi.ts:77-87 | logging out twice equals logging out once |
| Email.Test | app/login/page.tsx:31 | the scanning check accepts exactly the strings the pattern matches |
| Email.Matches | app/login/page.tsx:21 | the pattern: non-space, non-`@` text, an `@`, more such text, a dot, and more such text to the end |
| Email.MatchesIffWellFormed | app/login/page.tsx:21 | the pattern matches exactly the strings with no white space, a single `@` after a non-empty local part, and a dot strictly inside the domain |
| Email.TypicalAddressMatches | app/login/page.tsx:21 | "ana@mail.com" is accepted |
| Email.MalformedAddressesRejected | app/login/page.tsx:21 | a domain without an inner dot, a second `@` and a blank are each rejected |
| LoginPage.EmailFlagsExclusive | app/login/page.tsx:93-94 | "required" and "invalid" never show together |
| LoginPage.EmailError | app/login/page.tsx:20 | the required message shows when the touched e-mail field is empty |
| LoginPage.EmailInvalid | app/login/page.tsx:21 | the format message shows when the touched e-mail field is filled and the pattern rejects it |
| LoginPage.PasswordError | app/login/page.tsx:22 | the required message shows when the touched password field is empty |
| LoginPage.CanSubmit | app/login/page.tsx:30-31 | a request is sent only with both values and an address the pattern accepts |
| LoginPage.EmailBlur | app/login/page.tsx:90 | leaving the e-mail field only marks it touched, after which the required message shows exactly when it is empty |
| LoginPage.PasswordBlur | app/login/page.tsx:113 | leaving the password field only marks it touched, after which the required message shows exactly when it is empty |
| LoginPage.Submit | app/login/page.tsx:27-46 | submitting touches both fields. Without both values and a well-formed address nothing is sent. Otherwise the login mutation runs through the gateway. It moves to /dashboard exactly when the data has status code 200. A rejection shows the generic message, since it is never an `Error`. Null data throws a TypeError |
| LoginPage.NonOkStatusLeavesSpinner | app/login/page.tsx:36-41 | data without status code 200 neither navigates nor stops the spinner nor shows a message |
| ForgotPasswordPage.EmailFlagsExclusive | app/login/forgot_password/page.tsx:24-25 | the two e-mail messages never show together |
| ForgotPasswordPage.Submit | app/login/forgot_password/page.tsx:30-48 | a malformed address sends nothing. Otherwise the reset mutation runs. Success moves to the code step and to /login. Failure keeps the step and shows the generic message. The submitting flag ends down either way |
| ForgotPasswordPage.ResetRequestShape | app/login/forgot_password/page.tsx:33-38 | the first request is the POST to /account/forgot-password with the typed address |
| DashboardLayout.HomeActiveExactly | app/dashboard/layout.tsx:70-73 | the home entry is highlighted on /dashboard and nowhere else |
| DashboardLayout.IsActive | app/dashboard/layout.tsx:70-73 | an entry is highlighted when the path is its route (home) or starts with it (every other entry) |
| DashboardLayout.RouteActiveOnExtensions | app/dashboard/layout.tsx:72 | every other entry is highlighted on any path that extends its route |
| DashboardLayout.PrefixNotSegmentAware | app/dashboard/layout.tsx:72 | the test is on characters: /dashboard/rolesets lights the Roles entry |
| DashboardLayout.OneActiveEntry | app/dashboard/layout.tsx:16-30 | on the page of a navigation entry, that entry and no other is highlighted |
| DashboardLayout.LoadUserName | app/dashboard/layout.tsx:57-68 | the name comes only from a stored, parseable, non-null profile's `fullName`; the server, a missing or empty entry, unparsable text or null give "" |
| DashboardLayout.StoredNameLoads | app/dashboard/layout.tsx:60-63 | a stored profile with a string name shows that name |
| DashboardLayout.Initial | app/dashboard/layout.tsx:81 | the avatar shows one character: "?" without a name, else the upper-cased first letter |
| DashboardLayout.InitialIdempotent | app/dashboard/layout.tsx:81 | the initial of an initial is itself |
| DashboardLayout.DisplayName | app/dashboard/layout.tsx:133 | the label is never empty and is the name when there is one |
| DashboardLayout.HandleLogout | app/dashboard/layout.tsx:75-79 | logging out empties the session keys, keeps all others, and goes to /login |
| DashboardLayout.LogoutForgetsName | app/dashboard/layout.tsx:75-79 | after logging out no name can load |
| RegisterPage.PersonalValidPasswordsAgree | app/login/register/page.tsx:31-38 | a personal step that passes has matching passwords, or no confirmation yet |
| RegisterPage.EmptyConfirmationNoMismatch | app/login/register/page.tsx:31 | an empty confirmation is never reported as a mismatch |
| RegisterPage.PasswordMismatch | app/login/register/page.tsx:31 | a mismatch needs both passwords typed and different |
| RegisterPage.PersonalValid | app/login/register/page.tsx:33-38 | step 0 passes with a name of three units, a matching e-mail, a birthday, a password of six units and no mismatch |
| RegisterPage.OrgValid | app/login/register/page.tsx:40 | step 1 passes with a name and a code of two units each |
| RegisterPage.OneEmojiOrgName | app/login/register/page.tsx:40 | a single emoji is a long enough organization name, since it counts two units |
| RegisterPage.KeepCodeChars | app/login/register/page.tsx:47 | the filter never lengthens the text and keeps only `A-Z0-9` |
| RegisterPage.KeepCodeCharsAppend | app/login/register/page.tsx:47 | filtering distributes over concatenation |
| RegisterPage.KeepCodeCharsIdentity | app/login/register/page.tsx:47 | text of code characters survives the filter unchanged |
| RegisterPage.GenerateCode | app/login/register/page.tsx:42-51 | the code is the first ten kept characters of the upper-cased name, or all of them when there are fewer |
| RegisterPage.UpperOfCodeChars | app/login/register/page.tsx:46 | upper-casing leaves code characters alone |
| RegisterPage.GenerateCodeIdempotent | app/login/register/page.tsx:45-48 | generating from a generated code gives it back |
| RegisterPage.GenerateCodeExample | app/login/register/page.tsx:45-48 | "mi-1" becomes "MI1" |
| RegisterPage.OrgNameBlur | app/login/register/page.tsx:299 | leaving the name field touches it and regenerates the code unless the name is empty or the code was typed |
| RegisterPage.CodeChange | app/login/register/page.tsx:314 | typing a code takes it as typed, marks it dirty and touched |
| RegisterPage.TypedCodeSticks | app/login/register/page.tsx:43 | once typed, the code is never overwritten by leaving the name field |
| RegisterPage.NextStep | app/login/register/page.tsx:53-68 | every personal field becomes touched. A valid step advances and clears the message. An invalid one stays, reporting only a password mismatch. Lengths are UTF-16 code units, as `.length` counts them |
| RegisterPage.Back | app/login/register/page.tsx:334 | back returns to step 0 with no message and nothing else changed |
| RegisterPage.NextThenBack | app/login/register/page.tsx:53-68 | forward then back loses nothing but the message |
| RegisterPage.SignUpOf | app/login/register/page.tsx:79-87 | the data sent is the form's, with the converted birthday and no phone when it is empty |
| RegisterPage.Settle | app/login/register/page.tsx:90-97 | success keeps the spinner while the page moves on; failure stops it and shows the error's message |
| RegisterPage.Submit | app/login/register/page.tsx:70-98 | an invalid organization step (name or code shorter than two UTF-16 units) sends nothing. An invalid birthday throws before any request. Otherwise the page registers, then logs in, and moves to /dashboard exactly when that chain succeeds |
| RegisterPage.SubmitLogsInOnlyAfterRegistering | app/login/register/page.tsx:77-97 | the login request is sent exactly when the registration succeeded, and only a completed chain navigates |
| RegisterPage.OrganizationNotSent | app/login/register/page.tsx:78-88 | the registration body carries no organization field, whatever the form holds |
| ProductsApi.FetchHeaders | lib/products-api.ts:16-24 | JSON type and bearer token unless the caller overrides them; the caller's headers always win; nothing else is added |
| ProductsApi.FetchJson | lib/products-api.ts:15-28 | success exactly on a 2xx status, with an unparsable body read as `{}`. A failed status throws the body's message or "Error en la solicitud.". A null body throws a TypeError. A network failure throws a TypeError |
| ProductsApi.FirstArray | lib/products-api.ts:40-45 | the items of the first array-valued field in key order, or none when no field is an array |
| ProductsApi.ReadPagination | lib/products-api.ts:47-58 | each number reads camelCase, then PascalCase, then its default (1, 1, the item count, the page size). Each flag reads the same way with default false |
| ProductsApi.ParsePaginated | lib/products-api.ts:30-61 | a bare array is the items with no metadata. An object yields its `data` array, or else its first array field, with metadata. Anything else is an empty page |
| ProductsApi.FlagsAreNotDerived | lib/products-api.ts:56-57 | a body naming neither flag reports neither a previous nor a next page, whatever its page numbers say |
| ProductsApi.PascalCaseFallback | lib/products-api.ts:47-49 | without the camelCase names, `CurrentPage` and `TotalCount` are read |
| ProductsApi.AbsentFieldsDefault | lib/products-api.ts:47-50 | with no page fields the metadata reads page 1 of 1 with the requested size |
| ProductsApi.GetProducts | lib/products-api.ts:63-71 | a GET of /product with page, size and sort order; its body is parsed with the requested size as default; failures are passed on |
| ProductsApi.ProductsUrlDigits | lib/products-api.ts:68 | whole page numbers below 10^21 in magnitude appear in the URL as their decimal digits |
| ProductsApi.Unwrap | lib/products-api.ts:80 | a body with a `data` key (even null) yields that value; an object without one or an array yields itself; any other body throws a TypeError |
| ProductsApi.CreateProduct | lib/products-api.ts:73-81 | a POST of the payload to /product; success returns the unwrapped body |
| ProductsApi.UpdateProduct | lib/products-api.ts:83-91 | a PUT to /product?id=ID; it succeeds exactly when the fetch does |
| ProductsApi.DeleteProduct | lib/products-api.ts:93-95 | a DELETE to /product?id=ID without a body; it succeeds exactly when the fetch does |
| ProductsApi.GetProductCategories | lib/products-api.ts:97-104 | a GET of /product-category with page and size, with the bearer headers and no body, parsed like the product list; a failure carries the fetch's error |
| ProductsApi.ItemsOf | lib/products-api.ts:38-45 | the items are the `data` array when there is one, else the first array-valued field |
| ProductsApi.FieldNumber | lib/products-api.ts:47-55 | a number field reads the camelCase name, then the PascalCase one, then the default; a null value gives the default |
| ProductsApi.FieldFlag | lib/products-api.ts:56-57 | a flag reads the camelCase name, then the PascalCase one, and is its value's truthiness, or false when both are absent |
| ProductsApi.ListsParseAlike | lib/products-api.ts:63-104 | for the same reply, the product list and the category list yield the same result |
| ProductsApi.FailureMessageShared | lib/products-api.ts:25-27 | on a failed status whose body has a message, the products helpers and the account calls throw the same message |
| ProductsApi.CreatedValuesAgree | lib/products-api.ts:73-81 | on a 2xx object body, creating a product and creating an organization return the same value unless `data` is null |
| ProductsApi.UpdateDeleteSameTarget | lib/products-api.ts:83-95 | updating and deleting the same id address the same URL and succeed or fail together |
| ProductsApi.UnexportedImportsBreakHelpers | lib/products-api.ts:1 | every helper's request is built from both imported names: its URL starts with `getApiUrl()` and its headers carry `getToken()`. As written, each of the five helpers sends nothing and throws a TypeError whatever the reply; with the names bound it sends that request, and a 2xx reply to the product list is a page |
| ProductsApi.Invoke | lib/products-api.ts:1 | a helper call under the import as written sends no request and throws a TypeError; under the repaired import it sends the helper's one request and returns its result |
| ProductsPager.Window | app/dashboard/products/page.tsx:211-225 | the buttons are consecutive numbers. With at most five pages they are 1 to the total. Otherwise five buttons lie within 1..total, or none when the current page is NaN |
| ProductsPager.PageNumbers | app/dashboard/products/page.tsx:211-214 | no buttons without pagination |
| ProductsPager.WindowLength | app/dashboard/products/page.tsx:216-224 | a whole number of pages shows `min(5, totalPages)` buttons |
| ProductsPager.WindowContainsCurrent | app/dashboard/products/page.tsx:218-224 | every valid current page has its own button |
| ProductsPager.TwelvePagesAtStart | app/dashboard/products/page.tsx:216-224 | with twelve pages, page 1 shows pages 1–5: the window is clamped at page 1 |
| ProductsPager.TwelvePagesAtEnd | app/dashboard/products/page.tsx:216-224 | with twelve pages, page 12 shows pages 8–12: the window slides left to end at the last page |
| ProductsPager.TwelvePagesInMiddle | app/dashboard/products/page.tsx:216-224 | with twelve pages, page 6 shows pages 4–8, centred on it |
| ProductsPager.RangeCountsPageRecords | app/dashboard/products/page.tsx:204-209 | on a page holding records the range spans exactly that page's records |
| ProductsPager.RangesTile | app/dashboard/products/page.tsx:204-209 | one full page's range ends right before the next page's begins |
| ProductsPager.RangeStart | app/dashboard/products/page.tsx:204-206 | the footer's first position is `(currentPage - 1) * pageSize + 1`, or 0 without pagination |
| ProductsPager.RangeEnd | app/dashboard/products/page.tsx:207-209 | the footer's last position is `currentPage * pageSize` capped by the total, or 0 without pagination |
| ProductsPager.RangeWithoutPagination | app/dashboard/products/page.tsx:204-209 | without pagination the footer reads 0–0 |
| ProductsPage.EffectLoads | app/dashboard/products/page.tsx:113-115 | the page reloads exactly when the page number or the page size changed, and then loads the new page |
| ProductsPage.Issue | app/dashboard/products/page.tsx:94 | a transition that asks for loads raises the loading flag, since each `loadData` starts with `setLoading(true)`; one that asks for none leaves the flag alone |
| ProductsPage.LoadData | app/dashboard/products/page.tsx:92-107 | a finished load shows the parsed rows and metadata, or an empty table without metadata on failure; only these three fields change |
| ProductsPage.FailedLoadLooksEmpty | app/dashboard/products/page.tsx:95-104 | a failed load leaves the page exactly as a successful load of an empty list does |
| ProductsPage.LoadRequest | app/dashboard/products/page.tsx:96 | loading asks for the page with the current size, newest first |
| ProductsPage.ChangePageSize | app/dashboard/products/page.tsx:347-350 | a new size returns to page 1 and reloads it when page or size changed, raising the loading flag; nothing else changes |
| ProductsPage.GoToPage | app/dashboard/products/page.tsx:374 | a page button makes that page current and, when it is a different page, loads it with the loading flag raised |
| ProductsPage.Previous | app/dashboard/products/page.tsx:363-364 | "previous" acts only when the server reported a previous page; it then moves one page back and loads it with the loading flag raised |
| ProductsPage.Next | app/dashboard/products/page.tsx:382-383 | "next" acts only when the server reported a next page; it then moves one page on and loads it with the loading flag raised |
| ProductsPage.NextThenPrevious | app/dashboard/products/page.tsx:363-383 | next then previous returns to the same page, loading each once, with the table loading |
| ProductsPage.OpenCreate | app/dashboard/products/page.tsx:117-122 | the form opens empty, with no errors and nothing being edited |
| ProductsPage.DraftOf | app/dashboard/products/page.tsx:126-135 | an edited product fills the draft, with absent texts empty and whole prices below 10^21 in magnitude as their digits |
| ProductsPage.OpenEdit | app/dashboard/products/page.tsx:124-138 | the form opens on the product's draft with no errors |
| ProductsPage.CloseForm | app/dashboard/products/page.tsx:140-143 | closing hides the form and forgets the product; the draft stays |
| ProductsPage.ErrorsOf | app/dashboard/products/page.tsx:146-152 | one entry per failed check, keyed by field, with that field's message |
| ProductsPage.DraftErrors | app/dashboard/products/page.tsx:145-155 | code and name are rejected when blank after trimming; each price is rejected when NaN or negative; no other key appears |
| ProductsPage.ValidIffNoErrors | app/dashboard/products/page.tsx:153-154 | validation passes exactly when the error map is empty |
| ProductsPage.ValidMeans | app/dashboard/products/page.tsx:147-152 | passing means non-blank code and name and two non-negative numbers |
| ProductsPage.PriceExamples | app/dashboard/products/page.tsx:149-151 | "-1" and "abc" are rejected as a price; "0" is accepted |
| ProductsPage.PayloadOf | app/dashboard/products/page.tsx:162-171 | the payload trims the texts, parses the prices and sends no category as null |
| ProductsPage.ValidPayload | app/dashboard/products/page.tsx:159-171 | a payload from a passing draft has a code, a name and non-negative prices |
| ProductsPage.EditRoundTrip | app/dashboard/products/page.tsx:126-171 | saving an untouched edit sends back the product's own prices, category and availability |
| ProductsPage.Save | app/dashboard/products/page.tsx:172-176 | an edit updates the product being edited; anything else creates |
| ProductsPage.AfterSave | app/dashboard/products/page.tsx:177-184 | a failed save keeps the form with the error under `submit` and reloads nothing. A successful one closes the form and raises the loading flag: an edit reloads the current page, and a create loads page 1 and moves there. Pagination, the rows, the draft, the page size and the delete confirmation are left as they were |
| ProductsPage.HandleSubmit | app/dashboard/products/page.tsx:157-185 | an invalid draft only shows its errors and sends nothing; a valid one is saved from its payload and settles as above |
| ProductsPage.SubmitOutcomes | app/dashboard/products/page.tsx:172-184 | a failed save loses no typing; a successful create always lands on page 1 |
| ProductsPage.OpenDelete | app/dashboard/products/page.tsx:187-190 | asking to delete only opens the confirmation for that product |
| ProductsPage.CancelDelete | app/dashboard/products/page.tsx:559 | dismissing only closes the confirmation |
| ProductsPage.HandleDelete | app/dashboard/products/page.tsx:192-202 | nothing happens without a target. Otherwise exactly that product is deleted, and the page settles as `ProductsPage.AfterDelete` states |
| ProductsPage.AfterDelete | app/dashboard/products/page.tsx:194-201 | success closes the confirmation, forgets the target and reloads the page last reported (or page 1) with the loading flag raised, changing nothing else; failure stores "Error al eliminar" under `formErrors.submit` and changes nothing else |
| ProductsPage.DeleteErrorClearedOnOpen | app/dashboard/products/page.tsx:119-135 | a failed delete stores its error in the product form's error map and leaves the form open or closed as it was, and opening the form clears that map, so the message is never displayed |
| ProductsPage.DeleteTwoPhase | app/dashboard/products/page.tsx:187-202 | opening the confirmation sends nothing; confirming sends one DELETE for the chosen product |

## Left out

- Rendering, CSS, icons, focus and password-visibility toggles, toasts and router refreshes carry no logic worth modelling and are not part of the model.
- Concurrency is not modelled. The loads, the effect and a save are independent promises. The model returns the pages a transition asks to load, and each load's completion is its own transition (`ProductsPage.LoadData`); interleavings are not modelled.
- `loadCategories` (app/dashboard/products/page.tsx:87-90) only fills the category select. `ProductsApi.GetProductCategories` models its request; mapping rows to select options is display-only.
- `searchTerm` (app/dashboard/products/page.tsx:75) is stored but never used by any request, so it is not modelled.
- The forgot-password `handleResend` (app/login/forgot_password/page.tsx:50-57) only waits on a timer, so it is not modelled.
- Date handling is not modelled: the register page's `new Date(birthday).toISOString()` is a parameter (the ISO text, or none when it throws), and `formatDate`/`formatCurrency` are display-only.
- `getApiUrl` in lib/baseQuery.ts (lines 11-18) is never called there, because the gateway's base URL is fixed (line 58), so it is not modelled. `getToken` in the same file (lines 23-26) is called by `prepareHeaders` (line 60) and is modelled as `Session.GetToken`.
- Numbers.ParseNumber: exponents, hexadecimal, `Infinity` and non-ASCII white space are not modelled. The model reads such text as NaN; JavaScript reads some of it as a number.
- Numbers.ParseNumber: the value is the exact decimal, not the nearest double. JavaScript rounds, so a negative decimal too small for a double (a minus, a point, 400 zeros and a 1) reads as `-0` there. `-0 < 0` is false, so app/dashboard/products/page.tsx:151 accepts that price, while the model rejects it as negative.
- Numbers.NumberToString: for numbers that are not whole, only "it reads back as the same number" is stated, not the engine's shortest round-trip digits.
- Numbers.NumberToString: from 10^21 in magnitude, JavaScript prints whole numbers in exponent form ("1e+21"). The model promises digits only below 10^21. Above that it states only the read-back, and it does not model the exponent text, because `Number` here does not read exponents.
- ProductsPage.DraftOf: a whole price of 10^21 or more in magnitude fills the draft in exponent form in JavaScript. The contract promises its digits only below 10^21, for the reason given for `Numbers.NumberToString`.
- ProductsApi.ProductsUrlDigits: is stated only for page numbers below 10^21 in magnitude. Larger ones go into the URL in exponent form, which is not modelled.
- Text.Trim: only ASCII white space is trimmed. Unicode spaces are not modelled.
- Email.Matches: `\s` in the pattern is read as ASCII white space only. JavaScript's `\s` also matches Unicode spaces, such as the no-break space, which the model treats as ordinary characters.
- RegisterPage.GenerateCode: `toUpperCase` is ASCII-only (`Text.UpperChar`). Unicode case mapping, where "ß" becomes "SS" and "é" becomes "É", is not modelled, because it needs the Unicode case tables.
- DashboardLayout.Initial: the model takes the first character and upper-cases it ASCII-only. `charAt(0).toUpperCase()` takes the first UTF-16 unit and applies full Unicode case mapping, so "éva" shows "É" and "ßa" shows "SS" (two characters, where the contract promises one). Names starting with ASCII are modelled exactly; the rest needs the Unicode case tables.
- ProductsApi.FetchHeaders: models the helper with `getToken` bound to the declaration in lib/auth-api.ts. As written, the name is not exported, so the call throws a TypeError before any header is built (`ProductsApi.Invoke` with `Unresolved`).
- ProductsApi.FetchJson: models the helper with `getApiUrl` and `getToken` bound. As written, every call throws a TypeError and sends nothing (`ProductsApi.UnexportedImportsBreakHelpers`); the same holds for `CreateProduct`, `UpdateProduct`, `DeleteProduct` and `GetProductCategories`.
- ProductsApi.GetProducts: models the list request with the import repaired. As written, it throws a TypeError before sending, so `ProductsPage.LoadData` would always take its failure branch and show an empty table.
- ProductsPager.Window: the 2^53 cap of array lengths (`ToLength`) is not modelled. Only the floor and NaN-to-0 conversion are.
- Http.Message: the engine's wording for its own errors (TypeError, SyntaxError, RangeError) is not modelled. The error's name stands in for it in the messages the pages show.
- DashboardLayout.LoadUserName: returns the raw `fullName` value. How the page displays a non-string name is not modelled.
- Session.SaveToken: when "Bearer " occurs only after the start of the header value, the contract states the stored length, not the exact text. The exact text follows from `Text.ReplaceFirst`, and `Session.SaveTokenStripsScheme` states it for the usual leading case.
- JSON parsing and serialisation of the storage are not modelled: `JSON.parse` of the stored user is a parameter, and `JSON.stringify` is a ghost definition over the value tree.

## Findings

| source | as written | input that shows it | evidently intended | confidence | as-written member | corrected member |
|---|---|---|---|---|---|---|
| lib/products-api.ts:1 | imports `getApiUrl` and `getToken`, which lib/auth-api.ts:13,21 declares without `export`, so the names do not resolve and every helper throws a TypeError before sending | any call, e.g. `getProducts(1, 10, "desc")` answered by a 2xx list | the helpers use the base URL and the stored token of lib/auth-api.ts | not executed | ProductsApi.UnexportedImportsBreakHelpers | ProductsApi.GetProducts |

=== FILE: auth_api.dfy ===
/**
 * The fetch-based account helpers of lib/auth-api.ts: the API base URL,
 * login with token capture, registration, organisation creation and
 * registration followed by login.
 */
module AuthApi {
  import opened Wrappers
  import opened Json
  import opened Session
  import opened Http

  const BackendUrl := "http://inventorydevelop.us-east-2.elasticbeanstalk.com/api"
  const JsonHeaders: map<string, string> := map["Content-Type" := "application/json"]

  /**
   * `getApiUrl()`: the Vercel proxy path in a browser running a production
   * build; otherwise `NEXT_PUBLIC_API_URL` when it is set (even to ""),
   * else the fixed backend URL.
   */
  function GetApiUrl(env: Env): (u: string)
    ensures u == "/api" <==> (env.browser && env.production) || env.apiUrlVar == Some("/api")
    ensures !(env.browser && env.production) && env.apiUrlVar.None? ==> u == BackendUrl
    ensures !(env.browser && env.production) && env.apiUrlVar.Some? ==> u == env.apiUrlVar.value
  {
    var remoteUrl := env.apiUrlVar.GetOr(BackendUrl);
    if env.browser && env.production then "/api" else remoteUrl
  }

  /** One helper call: the storage afterwards, the requests sent, and the value returned or thrown. */
  datatype Call<+T> = Call(store: Store, sent: seq<Request>, result: Result<T, Thrown>)

  function Credentials(email: string, password: string): Value {
    JObj([("email", JStr(email)), ("password", JStr(password))])
  }

  function LoginRequest(env: Env, email: string, password: string): Request {
    Request("POST", GetApiUrl(env) + "/account/login", JsonHeaders, Some(Credentials(email, password)))
  }

  const InvalidCredentials := "Email o contraseña incorrectos."
  const LoginFailed := "Error al iniciar sesión."
  const InvalidResponse := "Respuesta inválida del servidor."

  /** The user a successful login body carries: `json.data ?? json.result`. */
  function LoginUser(json: Value): Option<Value> {
    OrElse(Prop(json, "data"), Prop(json, "result"))
  }

  /**
   * `login(credentials)`. Token headers are stored before the status is
   * looked at, so a failed login still stores them.
   */
  ghost function Login(env: Env, st: Store, email: string, password: string, reply: FetchReply): (c: Call<Value>)
    ensures c.sent == [LoginRequest(env, email, password)]
    ensures reply.NetworkFailure? ==> c.store == st && c.result == Err(TypeError)
    ensures reply.Response? ==> forall k :: k != UserKey ==>
      var captured := SaveTokenHeaders(env, st, reply.headers);
      (k in c.store <==> k in captured) && (k in c.store ==> c.store[k] == captured[k])
    ensures reply.Response? && reply.body.None? ==> c.result == Err(SyntaxError)
    ensures c.result.Ok? <==> reply.Response? && IsOk(reply.status) && reply.body.Some? && reply.body.value != JNull
                              && TruthyOpt(LoginUser(reply.body.value))
    ensures c.result.Ok? ==> c.result.value == LoginUser(reply.body.value).value
    ensures c.result.Ok? && env.browser ==> UserKey in c.store && c.store[UserKey] == Stringify(c.result.value)
    ensures c.result.Ok? ==> c.store == SaveUser(env, SaveTokenHeaders(env, st, reply.headers), c.result.value)
    ensures c.result.Err? ==> c.store == (if reply.Response? then SaveTokenHeaders(env, st, reply.headers) else st)
    ensures c.result.Err? ==> (UserKey in c.store <==> UserKey in st) && (UserKey in c.store ==> c.store[UserKey] == st[UserKey])
    ensures reply.Response? && IsOk(reply.status) && reply.body == Some(JNull) ==> c.result == Err(TypeError)
    ensures reply.Response? && IsOk(reply.status) && reply.body.Some? && reply.body.value != JNull && !TruthyOpt(LoginUser(reply.body.value)) ==>
      c.result == Err(Error(InvalidResponse))
    ensures reply.Response? && !IsOk(reply.status) && reply.body.Some? && !Defined(MessageProp(reply.body.value)) ==>
      c.result == Err(Error(if reply.status == 401 then InvalidCredentials else LoginFailed))
    ensures reply.Response? && !IsOk(reply.status) && reply.body.Some? && Defined(MessageProp(reply.body.value)) ==>
      c.result == Err(Error(ToStr(MessageProp(reply.body.value).value)))
  {
    var req := LoginRequest(env, email, password);
    match reply
    case NetworkFailure => Call(st, [req], Err(TypeError))
    case Response(status, headers, body) =>
      var st1 := SaveTokenHeaders(env, st, headers);
      match body
      case None => Call(st1, [req], Err(SyntaxError))
      case Some(json) =>
        if !IsOk(status) then
          Call(st1, [req], Err(Error(BodyMessage(json, if status == 401 then InvalidCredentials else LoginFailed))))
        else if json == JNull then
          Call(st1, [req], Err(TypeError))
        else
          var user := LoginUser(json);
          if TruthyOpt(user) then Call(SaveUser(env, st1, user.value), [req], Ok(user.value))
          else Call(st1, [req], Err(Error(InvalidResponse)))
  }

  /** `json?.message`. */
  function MessageProp(json: Value): Option<Value> {
    if json == JNull then None else Prop(json, "message")
  }

  /** A failed login stores the tokens its response carried. */
  lemma FailedLoginKeepsTokens(env: Env, st: Store, email: string, password: string, status: int, headers: map<string, string>, body: Option<Value>)
    requires env.browser && !IsOk(status)
    requires Filled(HeaderValue(headers, "Authorization"))
    ensures var c := Login(env, st, email, password, Response(status, headers, body));
      c.result.Err? && TokenKey in c.store && c.store[TokenKey] == StripBearer(headers["Authorization"])
  {
  }

  const RegisterFailed := "Error al registrar."

  /** The body of a failed registration: the parsed JSON, or `{}` when it does not parse. */
  function FailureBody(body: Option<Value>): Value {
    body.GetOr(JObj([]))
  }

  /** `register(body)`: storage is never touched and the response body is read only on failure. */
  ghost function Register(env: Env, st: Store, body: Value, reply: FetchReply): (c: Call<()>)
    ensures c.store == st
    ensures c.sent == [Request("POST", GetApiUrl(env) + "/account/register", JsonHeaders, Some(body))]
    ensures c.result.Ok? <==> reply.Response? && IsOk(reply.status)
    ensures reply.NetworkFailure? ==> c.result == Err(TypeError)
    ensures reply.Response? && !IsOk(reply.status) && !Defined(MessageProp(FailureBody(reply.body))) ==>
      c.result == Err(Error(RegisterFailed))
    ensures reply.Response? && !IsOk(reply.status) && Defined(MessageProp(FailureBody(reply.body))) ==>
      c.result == Err(Error(ToStr(MessageProp(FailureBody(reply.body)).value)))
  {
    var req := Request("POST", GetApiUrl(env) + "/account/register", JsonHeaders, Some(body));
    match reply
    case NetworkFailure => Call(st, [req], Err(TypeError))
    case Response(status, _, rbody) =>
      if IsOk(status) then Call(st, [req], Ok(()))
      else Call(st, [req], Err(Error(BodyMessage(FailureBody(rbody), RegisterFailed))))
  }

  const CreateOrganizationFailed := "Error al crear la organización."

  /** The wire body of an organisation: `{Name, Code}`. */
  function OrganizationBody(name: string, code: string): Value {
    JObj([("Name", JStr(name)), ("Code", JStr(code))])
  }

  /** `createOrganization({name, code})`: returns `json.data`, or the whole body when `data` is absent or null. */
  ghost function CreateOrganization(env: Env, st: Store, name: string, code: string, reply: FetchReply): (c: Call<Value>)
    ensures c.store == st
    ensures c.sent == [Request("POST", GetApiUrl(env) + "/organization", BearerHeaders(env, st), Some(OrganizationBody(name, code)))]
    ensures c.result.Ok? <==> reply.Response? && IsOk(reply.status) && reply.body.Some? && reply.body.value != JNull
    ensures c.result.Ok? && Defined(Prop(reply.body.value, "data")) ==> c.result.value == Prop(reply.body.value, "data").value
    ensures c.result.Ok? && !Defined(Prop(reply.body.value, "data")) ==> c.result.value == reply.body.value
    ensures reply.NetworkFailure? ==> c.result == Err(TypeError)
    ensures reply.Response? && reply.body.None? ==> c.result == Err(SyntaxError)
    ensures reply.Response? && IsOk(reply.status) && reply.body == Some(JNull) ==> c.result == Err(TypeError)
    ensures reply.Response? && !IsOk(reply.status) && reply.body.Some? && !Defined(MessageProp(reply.body.value)) ==>
      c.result == Err(Error(CreateOrganizationFailed))
    ensures reply.Response? && !IsOk(reply.status) && reply.body.Some? && Defined(MessageProp(reply.body.value)) ==>
      c.result == Err(Error(ToStr(MessageProp(reply.body.value).value)))
  {
    var req := Request("POST", GetApiUrl(env) + "/organization", BearerHeaders(env, st), Some(OrganizationBody(name, code)));
    match reply
    case NetworkFailure => Call(st, [req], Err(TypeError))
    case Response(status, _, body) =>
      match body
      case None => Call(st, [req], Err(SyntaxError))
      case Some(json) =>
        if !IsOk(status) then Call(st, [req], Err(Error(BodyMessage(json, CreateOrganizationFailed))))
        else if json == JNull then Call(st, [req], Err(TypeError))
        else Call(st, [req], Ok(OrElse(Prop(json, "data"), Some(json)).value))
  }

  /** The sign-up form the register page sends. An absent phone is left out of the JSON. */
  datatype SignUp = SignUp(
    fullName: string, email: string, password: string, confirmationPassword: string,
    birthday: string, gender: int, phone: Option<string>)

  function SignUpJson(s: SignUp): Value {
    JObj([("fullName", JStr(s.fullName)), ("email", JStr(s.email)), ("password", JStr(s.password)),
          ("confirmationPassword", JStr(s.confirmationPassword)), ("birthday", JStr(s.birthday)),
          ("gender", JNum(s.gender as real))]
         + (if s.phone.Some? then [("phone", JStr(s.phone.value))] else []))
  }

  /** The only keys a sign-up body can have. */
  const SignUpKeys: set<string> := {"fullName", "email", "password", "confirmationPassword", "birthday", "gender", "phone"}

  /** The body carries the form's fields and nothing else; `phone` only when one was given. */
  lemma SignUpJsonKeys(s: SignUp)
    ensures SignUpJson(s).JObj?
    ensures forall i :: 0 <= i < |SignUpJson(s).fields| ==> SignUpJson(s).fields[i].0 in SignUpKeys
    ensures Get(SignUpJson(s).fields, "phone").Some? <==> s.phone.Some?
  {
    var fixed := [("fullName", JStr(s.fullName)), ("email", JStr(s.email)), ("password", JStr(s.password)),
                  ("confirmationPassword", JStr(s.confirmationPassword)), ("birthday", JStr(s.birthday)),
                  ("gender", JNum(s.gender as real))];
    var tail := if s.phone.Some? then [("phone", JStr(s.phone.value))] else [];
    assert SignUpJson(s).fields == fixed + tail;
    GetSkips(fixed, tail, "phone");
  }

  function RegisterWithOrganizationRequest(env: Env, s: SignUp): Request {
    Request("POST", GetApiUrl(env) + "/account/register-with-organization", JsonHeaders, Some(SignUpJson(s)))
  }

  /**
   * `registerWithOrganization(body)`: on success it logs in with the same
   * email and password; on failure it does not.
   */
  ghost function RegisterWithOrganization(env: Env, st: Store, s: SignUp, regReply: FetchReply, loginReply: FetchReply): (c: Call<Value>)
    ensures 1 <= |c.sent| <= 2 && c.sent[0] == RegisterWithOrganizationRequest(env, s)
    ensures |c.sent| == 2 <==> regReply.Response? && IsOk(regReply.status)
    ensures |c.sent| == 2 ==> c == Call(Login(env, st, s.email, s.password, loginReply).store,
                                        [c.sent[0], LoginRequest(env, s.email, s.password)],
                                        Login(env, st, s.email, s.password, loginReply).result)
    ensures |c.sent| == 1 ==> c.store == st && c.result.Err?
    ensures regReply.NetworkFailure? ==> c.result == Err(TypeError)
    ensures regReply.Response? && !IsOk(regReply.status) && !Defined(MessageProp(FailureBody(regReply.body))) ==>
      c.result == Err(Error(RegisterFailed))
    ensures regReply.Response? && !IsOk(regReply.status) && Defined(MessageProp(FailureBody(regReply.body))) ==>
      c.result == Err(Error(ToStr(MessageProp(FailureBody(regReply.body)).value)))
  {
    var req := RegisterWithOrganizationRequest(env, s);
    match regReply
    case NetworkFailure => Call(st, [req], Err(TypeError))
    case Response(status, _, body) =>
      if !IsOk(status) then Call(st, [req], Err(Error(BodyMessage(FailureBody(body), RegisterFailed))))
      else
        var login := Login(env, st, s.email, s.password, loginReply);
        Call(login.store, [req] + login.sent, login.result)
  }

  /**
   * A registration that fails fails the same way through either endpoint:
   * the same error for the same reply, and storage untouched.
   */
  lemma RegistrationFailuresAgree(env: Env, st: Store, s: SignUp, reply: FetchReply, loginReply: FetchReply)
    requires !(reply.Response? && IsOk(reply.status))
    ensures var a := Register(env, st, SignUpJson(s), reply);
      var b := RegisterWithOrganization(env, st, s, reply, loginReply);
      a.result.Err? && b.result.Err? && a.result.error == b.result.error && a.store == b.store == st
  {
  }
}

=== FILE: auth_endpoints.dfy ===
/**
 * The account endpoints of app/login/_service/authApi.ts. Each mutation
 * builds a request descriptor that goes through the re-authenticating
 * gateway; `logout` never reaches the network and only empties the session.
 */
module AuthEndpoints {
  import opened Wrappers
  import opened Json
  import opened Session
  import opened Http
  import opened Reauth

  /** The mutations that send a request. */
  datatype Endpoint = Login | Register | RegisterWithOrganization | CreateOrganization | RefreshToken | ResetPassword

  /** The fixed path each endpoint posts to. */
  function PathOf(e: Endpoint): string {
    match e
    case Login => "/account/login"
    case Register => "/account/register"
    case RegisterWithOrganization => "/account/register-with-organization"
    case CreateOrganization => "/organization"
    case RefreshToken => "/account/refresh"
    case ResetPassword => "/account/forgot-password"
  }

  /** The organization form as `createOrganization` receives it. */
  datatype Organization = Organization(name: string, code: string)

  /** The argument a mutation is called with: a pass-through body, or the organization form. */
  datatype Argument = Body(value: Value) | OrganizationForm(org: Organization)

  /** The argument a mutation expects. */
  predicate Accepts(e: Endpoint, a: Argument) {
    e.CreateOrganization? <==> a.OrganizationForm?
  }

  /**
   * The descriptor an endpoint's `query` builds: always a POST to its own
   * path; the body is the argument itself except for `createOrganization`,
   * which renames the fields to `Name` and `Code`.
   */
  function Query(e: Endpoint, a: Argument): (q: Args)
    requires Accepts(e, a)
    ensures q.verb == "POST"
    ensures q.url == PathOf(e)
    ensures a.Body? ==> q.body == Some(a.value)
    ensures a.OrganizationForm? ==>
      q.body == Some(JObj([("Name", JStr(a.org.name)), ("Code", JStr(a.org.code))]))
  {
    var body := match a
      case Body(v) => v
      case OrganizationForm(o) => JObj([("Name", JStr(o.name)), ("Code", JStr(o.code))]);
    Args(PathOf(e), "POST", Some(body))
  }

  /** Distinct endpoints never share a path, so the backend can tell every call apart. */
  lemma PathsDistinct(e1: Endpoint, e2: Endpoint)
    requires e1 != e2
    ensures PathOf(e1) != PathOf(e2)
  {
  }

  /** The explicit refresh mutation builds exactly the request the gateway itself uses to refresh. */
  lemma RefreshEndpointMatchesGateway(t: string)
    ensures Query(RefreshToken, Body(JObj([("refreshToken", JStr(t))]))) == RefreshArgs(t)
  {
  }

  /** Running a mutation: its descriptor goes through `baseQueryWithReauth`. */
  function Mutate(env: Env, st: Store, e: Endpoint, a: Argument, replies: seq<Reply>): (o: Outcome)
    requires Accepts(e, a)
    ensures |o.sent| >= 1
    ensures o.sent[0].verb == "POST" && o.sent[0].url == BaseUrl + PathOf(e)
    ensures o.sent[0].headers == BearerHeaders(env, st)
  {
    WithReauth(env, st, Query(e, a), replies)
  }

  /**
   * A 401 from the login call itself is treated like any other: with a
   * refresh token stored (or just received) the gateway refreshes and
   * replays the login; without one it clears the session and redirects.
   */
  lemma LoginUnauthorizedEntersReauth(env: Env, st: Store, credentials: Value, replies: seq<Reply>)
    requires Unauthorized(ReplyAt(replies, 0).result)
    ensures var o := Mutate(env, st, Login, Body(credentials), replies);
      var st1 := Capture(env, st, ReplyAt(replies, 0).response);
      && (StoredRefreshToken(env, st1).Some? ==>
            o.sent[1].url == BaseUrl + "/account/refresh"
            && (Granted(ReplyAt(replies, 1)) ==> |o.sent| == 3 && o.sent[2].url == BaseUrl + "/account/login"))
      && (StoredRefreshToken(env, st1).None? ==>
            |o.sent| == 1 && o.store == ClearSession(env, st1) && o.redirect == env.browser)
  {
  }

  /** What `logout` leaves behind: the storage, and the requests it sent. */
  datatype Signout = Signout(store: Store, sent: seq<Request>)

  /** `logout`'s `queryFn`: removes the session keys in a browser and resolves with no data. */
  function Logout(env: Env, st: Store): (s: Signout)
    ensures s.sent == []
    ensures s.store == ClearSession(env, st)
    ensures env.browser ==> Cleared(s.store)
  {
    var st' := if env.browser then st - {TokenKey, RefreshKey, UserKey} else st;
    Signout(st', [])
  }

  /** Logging out twice is the same as once. */
  lemma LogoutIdempotent(env: Env, st: Store)
    ensures Logout(env, Logout(env, st).store) == Logout(env, st)
  {
  }
}

=== FILE: dashboard_layout.dfy ===
/**
 * The dashboard shell of app/dashboard/layout.tsx: which navigation entry is
 * highlighted, the signed-in user's name and avatar letter, and signing out.
 */
module DashboardLayout {
  import opened Wrappers
  import opened Text
  import opened Json
  import opened Session

  /** The routes of the main and the admin navigation groups, in display order. */
  const NavRoutes: seq<string> := [
    "/dashboard", "/dashboard/products", "/dashboard/categories", "/dashboard/suppliers",
    "/dashboard/locations", "/dashboard/inventory", "/dashboard/movements",
    "/dashboard/users", "/dashboard/roles", "/dashboard/settings"]

  const Home := "/dashboard"

  /** `isActive(route)` on the current `pathname`. */
  predicate IsActive(pathname: string, route: string) {
    if route == Home then pathname == Home else StartsWith(pathname, route)
  }

  /** The home entry is highlighted on the home page only, not below it. */
  lemma HomeActiveExactly(pathname: string)
    ensures IsActive(pathname, Home) <==> pathname == Home
  {
  }

  /** Any other entry is highlighted on its own page and on every path that extends it. */
  lemma RouteActiveOnExtensions(route: string, rest: string)
    requires route != Home
    ensures IsActive(route + rest, route)
  {
    assert (route + rest)[..|route|] == route;
  }

  /** The test is on characters, not path segments: a longer sibling name also lights the entry. */
  lemma PrefixNotSegmentAware()
    ensures IsActive("/dashboard/rolesets", "/dashboard/roles")
  {
    RouteActiveOnExtensions("/dashboard/roles", "ets");
  }

  /** On the page of any navigation entry, that entry and no other is highlighted. */
  lemma OneActiveEntry(i: nat, j: nat)
    requires i < |NavRoutes| && j < |NavRoutes|
    ensures IsActive(NavRoutes[i], NavRoutes[j]) <==> i == j
  {
    var p, r := NavRoutes[i], NavRoutes[j];
    if i == j && r != Home {
      assert p[..|r|] == r;
    } else if i != j && r != Home && |r| <= |p| {
      assert p[11] != r[11] || p[12] != r[12];
      assert p[..|r|][11] == p[11] && p[..|r|][12] == p[12];
    }
  }

  /** What the effect passes to `setUserName`: a stored profile's `fullName`, else the empty string. */
  function LoadUserName(env: Env, st: Store, parse: string -> Option<Value>): (name: Value)
    ensures !env.browser ==> name == JStr("")
    ensures env.browser && (UserKey !in st || st[UserKey] == "") ==> name == JStr("")
    ensures env.browser && UserKey in st && st[UserKey] != "" && parse(st[UserKey]).None? ==> name == JStr("")
    ensures env.browser && UserKey in st && st[UserKey] != "" && parse(st[UserKey]) == Some(JNull) ==> name == JStr("")
    ensures name != JStr("") ==>
      && env.browser && UserKey in st
      && parse(st[UserKey]).Some? && parse(st[UserKey]).value.JObj?
      && Get(parse(st[UserKey]).value.fields, "fullName") == Some(name)
      && name != JNull
  {
    match GetItem(env, st, UserKey)
    case None => JStr("")
    case Some(raw) =>
      if raw == "" then JStr("")
      else
        match parse(raw)
        case None => JStr("")
        case Some(user) =>
          if user == JNull then JStr("")
          else OrElse(Prop(user, "fullName"), Some(JStr(""))).value
  }

  /** A stored profile with a string name shows that name. */
  lemma StoredNameLoads(env: Env, st: Store, parse: string -> Option<Value>, fields: seq<(string, Value)>, n: string)
    requires env.browser && UserKey in st && st[UserKey] != ""
    requires parse(st[UserKey]) == Some(JObj(fields))
    requires Get(fields, "fullName") == Some(JStr(n))
    ensures LoadUserName(env, st, parse) == JStr(n)
  {
  }

  /** The avatar letter: the first character upper-cased, or `?` with no name. */
  function Initial(userName: string): (c: string)
    ensures |c| == 1
    ensures userName == "" ==> c == "?"
    ensures c == "?" ==> userName == "" || userName[0] == '?'
    ensures userName != "" ==> c[0] == UpperChar(userName[0])
  {
    if userName == "" then "?" else [UpperChar(userName[0])]
  }

  /** The avatar letter of an avatar letter is itself: upper-casing twice changes nothing. */
  lemma InitialIdempotent(userName: string)
    ensures Initial(Initial(userName)) == Initial(userName)
  {
  }

  /** The name under the avatar. */
  function DisplayName(userName: string): (d: string)
    ensures d != ""
    ensures userName != "" ==> d == userName
  {
    if userName == "" then "Usuario" else userName
  }

  /** Where `handleLogout` leaves things: the storage, and the page it navigates to. */
  datatype Signout = Signout(store: Store, navigateTo: string)

  /** `handleLogout`: the session is emptied and the browser goes to /login. */
  function HandleLogout(env: Env, st: Store): (s: Signout)
    ensures s.navigateTo == "/login"
    ensures env.browser ==> Cleared(s.store)
    ensures forall k :: k !in SessionKeys ==> (k in s.store <==> k in st) && (k in st ==> s.store[k] == st[k])
  {
    Signout(ClearSession(env, st), "/login")
  }

  /** After signing out there is no name to show. */
  lemma LogoutForgetsName(env: Env, st: Store, parse: string -> Option<Value>)
    requires env.browser
    ensures LoadUserName(env, HandleLogout(env, st).store, parse) == JStr("")
  {
  }
}

=== FILE: email.dfy ===
/**
 * The e-mail format check the login, register and forgot-password pages
 * share: the pattern `^[^\s@]+@[^\s@]+\.[^\s@]+$`, with `\s` restricted to
 * ASCII white space.
 */
module Email {
  import opened Text

  /** A character the class `[^\s@]` accepts. */
  predicate Plain(c: char) {
    !IsSpace(c) && c != '@'
  }

  /** A run of `[^\s@]` characters. */
  predicate AllPlain(s: string) {
    forall i :: 0 <= i < |s| ==> Plain(s[i])
  }

  /**
   * The pattern read literally: a non-empty plain run, `@`, a non-empty
   * plain run, a dot, a non-empty plain run, and nothing else.
   */
  ghost predicate Matches(s: string) {
    exists at, dot | 0 < at && at + 1 < dot && dot + 1 < |s| ::
      && s[at] == '@' && s[dot] == '.'
      && AllPlain(s[..at]) && AllPlain(s[at + 1..dot]) && AllPlain(s[dot + 1..])
  }

  /** `at` is the one and only `@` of `s`. */
  predicate SoleAt(s: string, at: int) {
    0 <= at < |s| && s[at] == '@' && forall k :: 0 <= k < |s| && s[k] == '@' ==> k == at
  }

  /** The domain after `@` has a dot that is neither its first nor its last character. */
  predicate InnerDot(s: string, at: int) {
    exists d :: 0 <= at + 1 < d < |s| - 1 && s[d] == '.'
  }

  /**
   * The same format described by its parts: no white space, exactly one
   * `@` with a non-empty local part, and a dot inside the domain.
   */
  ghost predicate WellFormed(s: string) {
    NoSpace(s) && exists at :: 0 < at && SoleAt(s, at) && InnerDot(s, at)
  }

  lemma MatchesIsWellFormed(s: string)
    requires Matches(s)
    ensures WellFormed(s)
  {
    var at, dot :| 0 < at && at + 1 < dot && dot + 1 < |s|
      && s[at] == '@' && s[dot] == '.'
      && AllPlain(s[..at]) && AllPlain(s[at + 1..dot]) && AllPlain(s[dot + 1..]);
    forall k | 0 <= k < |s| && k != at
      ensures Plain(s[k])
    {
      if k < at {
        assert s[..at][k] == s[k];
      } else if k < dot {
        assert s[at + 1..dot][k - at - 1] == s[k];
      } else if k > dot {
        assert s[dot + 1..][k - dot - 1] == s[k];
      }
    }
    assert InnerDot(s, at) by {
      assert at + 1 < dot < |s| - 1 && s[dot] == '.';
    }
    assert SoleAt(s, at);
  }

  lemma WellFormedMatches(s: string)
    requires WellFormed(s)
    ensures Matches(s)
  {
    var at :| 0 < at && SoleAt(s, at) && InnerDot(s, at);
    var dot :| at + 1 < dot < |s| - 1 && s[dot] == '.';
    assert forall k :: 0 <= k < |s| && k != at ==> Plain(s[k]);
    assert AllPlain(s[..at]) by {
      forall i | 0 <= i < at ensures Plain(s[..at][i]) {
        assert s[..at][i] == s[i];
      }
    }
    var domain := s[at + 1..dot];
    assert AllPlain(domain) by {
      forall i | 0 <= i < |domain| ensures Plain(domain[i]) {
        assert domain[i] == s[at + 1 + i];
      }
    }
    var tld := s[dot + 1..];
    assert AllPlain(tld) by {
      forall i | 0 <= i < |tld| ensures Plain(tld[i]) {
        assert tld[i] == s[dot + 1 + i];
      }
    }
  }

  /** The pattern accepts exactly the well-formed addresses. */
  lemma MatchesIffWellFormed(s: string)
    ensures Matches(s) <==> WellFormed(s)
  {
    if Matches(s) { MatchesIsWellFormed(s); }
    if WellFormed(s) { WellFormedMatches(s); }
  }

  /**
   * `EMAIL.test(s)` as a scan: one pass checks for white space and locates
   * the only `@`, a second pass looks for a dot inside the domain.
   */
  method Test(s: string) returns (ok: bool)
    ensures ok <==> Matches(s)
  {
    var at := -1;
    var i := 0;
    while i < |s|
      invariant 0 <= i <= |s|
      invariant forall k :: 0 <= k < i ==> !IsSpace(s[k])
      invariant at == -1 ==> forall k :: 0 <= k < i ==> s[k] != '@'
      invariant at != -1 ==> 0 <= at < i && s[at] == '@' && forall k :: 0 <= k < i && s[k] == '@' ==> k == at
    {
      if IsSpace(s[i]) {
        MatchesIffWellFormed(s);
        return false;
      }
      if s[i] == '@' {
        if at != -1 {
          MatchesIffWellFormed(s);
          return false;
        }
        at := i;
      }
      i := i + 1;
    }
    if at <= 0 {
      MatchesIffWellFormed(s);
      return false;
    }
    var d := at + 2;
    ok := false;
    while d < |s| - 1
      invariant at + 2 <= d
      invariant forall e :: at + 1 < e < d && e < |s| - 1 ==> s[e] != '.'
    {
      if s[d] == '.' {
        ok := true;
        break;
      }
      d := d + 1;
    }
    assert ok ==> InnerDot(s, at);
    assert !ok ==> !InnerDot(s, at);
    assert SoleAt(s, at);
    MatchesIffWellFormed(s);
  }

  lemma TypicalAddressMatches()
    ensures Matches("ana@mail.com")
  {
    var s := "ana@mail.com";
    assert s[..3] == "ana" && s[4..8] == "mail" && s[9..] == "com";
    assert s[3] == '@' && s[8] == '.';
  }

  /** A domain without an inner dot, a second `@`, or a blank is rejected. */
  lemma MalformedAddressesRejected()
    ensures !Matches("ana@mail")
    ensures !Matches("ana@.com")
    ensures !Matches("a@b@c.d")
    ensures !Matches("an a@b.cd")
  {
    MatchesIffWellFormed("ana@mail");
    MatchesIffWellFormed("ana@.com");
    MatchesIffWellFormed("a@b@c.d");
    assert "a@b@c.d"[1] == '@' && "a@b@c.d"[3] == '@';
    MatchesIffWellFormed("an a@b.cd");
    assert IsSpace("an a@b.cd"[2]);
  }
}

=== FILE: forgot_password_page.dfy ===
/**
 * The first step of app/login/forgot_password/page.tsx: asking for a reset
 * code by e-mail.
 */
module ForgotPasswordPage {
  import opened Wrappers
  import opened Json
  import opened Session
  import opened Http
  import opened Reauth
  import AuthEndpoints
  import Email

  datatype Step = EmailStep | CodeStep

  /** The page's state for the e-mail step. */
  datatype Form = Form(step: Step, email: string, emailTouched: bool, isSubmitting: bool, emailError: string)

  const Blank := Form(EmailStep, "", false, false, "")

  const GenericMessage := "Ocurrió un error. Intenta de nuevo."

  /** "Email required". */
  predicate EmailRequired(f: Form) {
    f.emailTouched && f.email == ""
  }

  /** "Bad email format". */
  ghost predicate EmailFormatInvalid(f: Form) {
    f.emailTouched && f.email != "" && !Email.Matches(f.email)
  }

  lemma EmailFlagsExclusive(f: Form)
    ensures !(EmailRequired(f) && EmailFormatInvalid(f))
  {
  }

  /** The request body of the reset mutation. */
  function ResetBody(email: string): Value {
    JObj([("email", JStr(email))])
  }

  /** The result of a submission: the form, the storage, the requests sent, and whether the page moved to /login. */
  datatype Submission = Submission(form: Form, store: Store, sent: seq<Request>, redirect: bool, navigated: bool)

  /**
   * `handleEmailSubmit`: with a well-formed address the reset mutation runs;
   * success moves on to the code step (and to /login), failure shows the
   * generic message; the submitting flag is down again either way.
   */
  ghost function Submit(env: Env, st: Store, f: Form, replies: seq<Reply>): (r: Submission)
    ensures r.form.emailTouched && r.form.email == f.email
    ensures f.email == "" || !Email.Matches(f.email) ==>
      r == Submission(f.(emailTouched := true), st, [], false, false)
    ensures f.email != "" && Email.Matches(f.email) ==>
      var o := AuthEndpoints.Mutate(env, st, AuthEndpoints.ResetPassword, AuthEndpoints.Body(ResetBody(f.email)), replies);
      && r.store == o.store && r.sent == o.sent && r.redirect == o.redirect
      && !r.form.isSubmitting
      && (r.form.step == CodeStep <==> o.result.result.QueryData? || f.step == CodeStep)
      && (r.navigated <==> o.result.result.QueryData?)
      && (o.result.result.QueryData? ==> r.form.emailError == "")
      && (o.result.result.QueryError? ==> r.form.step == f.step && r.form.emailError == GenericMessage)
  {
    var touched := f.(emailTouched := true);
    if f.email == "" || !Email.Matches(f.email) then Submission(touched, st, [], false, false)
    else
      var o := AuthEndpoints.Mutate(env, st, AuthEndpoints.ResetPassword, AuthEndpoints.Body(ResetBody(f.email)), replies);
      var sending := touched.(isSubmitting := true, emailError := "");
      var settled := match o.result.result
        case QueryData(_) => sending.(step := CodeStep)
        case QueryError(_, _) => sending.(emailError := GenericMessage);
      Submission(settled.(isSubmitting := false), o.store, o.sent, o.redirect, o.result.result.QueryData?)
  }

  /** The reset request is one POST to /account/forgot-password carrying the address, unless the gateway retries it. */
  lemma ResetRequestShape(env: Env, st: Store, f: Form, replies: seq<Reply>)
    requires f.email != "" && Email.Matches(f.email)
    ensures var r := Submit(env, st, f, replies);
      && |r.sent| >= 1
      && r.sent[0].url == BaseUrl + "/account/forgot-password"
      && r.sent[0].body == Some(JObj([("email", JStr(f.email))]))
  {
  }
}

=== FILE: http.dfy ===
/**
 * Requests the client sends, the replies `fetch` delivers, and the values
 * the client throws, shared by the request helpers and the pages.
 */
module Http {
  import opened Wrappers
  import opened Json

  /** An outgoing HTTP request; the body is the JSON value that is serialised. */
  datatype Request = Request(verb: string, url: string, headers: map<string, string>, body: Option<Value>)

  /**
   * What `fetch` delivers: a network failure (the promise rejects), or a
   * response whose body either parses as JSON or does not.
   */
  datatype FetchReply =
    | NetworkFailure
    | Response(status: int, headers: map<string, string>, body: Option<Value>)

  /** `res.ok`. */
  predicate IsOk(status: int) {
    200 <= status <= 299
  }

  /**
   * A thrown value that is an `Error`: one the client creates with a message,
   * or one the engine raises (a failed `fetch` is a TypeError, unparsable
   * JSON a SyntaxError, an invalid date a RangeError).
   */
  datatype Thrown = Error(message: string) | TypeError | SyntaxError | RangeError

  /**
   * `err.message`. The engine's own wording for its errors is not modelled;
   * the error's name stands in for it.
   */
  function Message(e: Thrown): string {
    match e
    case Error(m) => m
    case TypeError => "TypeError"
    case SyntaxError => "SyntaxError"
    case RangeError => "RangeError"
  }

  /** The message of a failed request body: `json?.message ?? fallback`, passed to `new Error`. */
  ghost function BodyMessage(body: Value, fallback: string): string {
    var m := if body == JNull then None else Prop(body, "message");
    if Defined(m) then ToStr(m.value) else fallback
  }
}

=== FILE: json.dfy ===
/**
 * JSON values as the client sees them after `JSON.parse`, with the
 * JavaScript operations it applies to them: property reads, `??`,
 * truthiness, `Number(v)`, `String(v)` and `JSON.stringify`.
 */
module Json {
  import opened Wrappers
  import opened Numbers

  /**
   * A parsed JSON value. An object's fields are listed in the engine's
   * property order (the order `Object.keys` reports); keys are distinct.
   */
  datatype Value =
    | JNull
    | JBool(b: bool)
    | JNum(n: real)
    | JStr(s: string)
    | JArr(items: seq<Value>)
    | JObj(fields: seq<(string, Value)>)

  /** The value stored under `key` in an object's fields. */
  function Get(fields: seq<(string, Value)>, key: string): (r: Option<Value>)
    ensures r.Some? ==> exists i :: 0 <= i < |fields| && fields[i] == (key, r.value)
    ensures r.None? ==> forall i :: 0 <= i < |fields| ==> fields[i].0 != key
  {
    if fields == [] then None
    else if fields[0].0 == key then Some(fields[0].1)
    else Get(fields[1..], key)
  }

  /** A lookup passes over leading fields that do not carry the key. */
  lemma {:induction false} GetSkips(a: seq<(string, Value)>, b: seq<(string, Value)>, key: string)
    requires forall i :: 0 <= i < |a| ==> a[i].0 != key
    ensures Get(a + b, key) == Get(b, key)
  {
    if a != [] {
      assert (a + b)[1..] == a[1..] + b;
      GetSkips(a[1..], b, key);
    } else {
      assert a + b == b;
    }
  }

  /**
   * `v.key` on a value that is not null: an object's own field; the
   * primitives and arrays have none of the names this client reads.
   */
  function Prop(v: Value, key: string): Option<Value> {
    if v.JObj? then Get(v.fields, key) else None
  }

  /** The value is neither undefined nor null. */
  predicate Defined(o: Option<Value>) {
    o.Some? && o.value != JNull
  }

  /** `a ?? b`. */
  function OrElse(a: Option<Value>, b: Option<Value>): Option<Value> {
    if Defined(a) then a else b
  }

  /** `Boolean(v)`. */
  predicate Truthy(v: Value) {
    match v
    case JNull => false
    case JBool(b) => b
    case JNum(n) => n != 0.0
    case JStr(s) => s != ""
    case JArr(_) => true
    case JObj(_) => true
  }

  /** `Boolean(o)` where an absent value is `undefined`. */
  predicate TruthyOpt(o: Option<Value>) {
    o.Some? && Truthy(o.value)
  }

  /**
   * `Number(v)`. An array converts through its string form: the empty
   * array is 0, a one-element array converts like its element, and a longer
   * one contains a comma and is NaN.
   */
  function ToNumber(v: Value): Number {
    match v
    case JNull => Int(0)
    case JBool(b) => if b then Int(1) else Int(0)
    case JNum(n) => Finite(n)
    case JStr(s) => ParseNumber(s)
    case JArr(_) => ElementNumber(v)
    case JObj(_) => NaN
  }

  /** `Number(String([e]))`: how an array element converts once printed. */
  function ElementNumber(e: Value): Number {
    match e
    case JNull => Int(0)
    case JBool(_) => NaN
    case JNum(n) => Finite(n)
    case JStr(s) => ParseNumber(s)
    case JArr(ys) => if |ys| == 0 then Int(0) else if |ys| == 1 then ElementNumber(ys[0]) else NaN
    case JObj(_) => NaN
  }

  /** `String(v)`. */
  ghost function ToStr(v: Value): string {
    match v
    case JNull => "null"
    case JBool(b) => if b then "true" else "false"
    case JNum(n) => NumberToString(Finite(n))
    case JStr(s) => s
    case JArr(xs) => JoinItems(xs)
    case JObj(_) => "[object Object]"
  }

  /** `xs.join(",")`, where null elements print as the empty string. */
  ghost function JoinItems(xs: seq<Value>): string {
    if xs == [] then ""
    else
      var head := if xs[0] == JNull then "" else ToStr(xs[0]);
      if |xs| == 1 then head else head + "," + JoinItems(xs[1..])
  }

  function HexDigit(d: nat): char
    requires d < 16
  {
    if d < 10 then DigitChar(d) else ('a' as int + d - 10) as char
  }

  /** One string character as `JSON.stringify` writes it inside quotes. */
  function EscapeChar(c: char): string {
    if c == '"' then "\\\""
    else if c == '\\' then "\\\\"
    else if c == '\n' then "\\n"
    else if c == '\r' then "\\r"
    else if c == '\t' then "\\t"
    else if c == '\U{0008}' then "\\b"
    else if c == '\U{000C}' then "\\f"
    else if (c as int) < 0x20 then "\\u00" + [HexDigit(c as int / 16), HexDigit(c as int % 16)]
    else [c]
  }

  function Quote(s: string): string {
    "\"" + EscapeBody(s) + "\""
  }

  function EscapeBody(s: string): string {
    if s == [] then "" else EscapeChar(s[0]) + EscapeBody(s[1..])
  }

  /** `JSON.stringify(v)` without indentation. */
  ghost function Stringify(v: Value): string {
    match v
    case JNull => "null"
    case JBool(b) => if b then "true" else "false"
    case JNum(n) => NumberToString(Finite(n))
    case JStr(s) => Quote(s)
    case JArr(xs) => "[" + StringifyItems(xs) + "]"
    case JObj(fs) => "{" + StringifyFields(fs) + "}"
  }

  ghost function StringifyItems(xs: seq<Value>): string {
    if xs == [] then ""
    else if |xs| == 1 then Stringify(xs[0])
    else Stringify(xs[0]) + "," + StringifyItems(xs[1..])
  }

  ghost function StringifyFields(fs: seq<(string, Value)>): string {
    if fs == [] then ""
    else
      assert fs[0].1 < fs[0];
      var f := Quote(fs[0].0) + ":" + Stringify(fs[0].1);
      if |fs| == 1 then f else f + "," + StringifyFields(fs[1..])
  }
}

=== FILE: login_page.dfy ===
/**
 * The sign-in form of app/login/page.tsx: field flags, the submit gate, and
 * what the page does with the login mutation's outcome.
 */
module LoginPage {
  import opened Wrappers
  import opened Json
  import opened Session
  import opened Http
  import opened Reauth
  import AuthApi
  import AuthEndpoints
  import Email

  /** The page's state; `touched` holds the names of the touched fields. */
  datatype Form = Form(email: string, password: string, touched: set<string>, isLoading: bool, errorMessage: string)

  const Blank := Form("", "", {}, false, "")

  /** The message shown for anything thrown that is not an `Error`. */
  const GenericMessage := "Ocurrió un error. Intenta de nuevo."

  /** "Email required": touched and empty. */
  predicate EmailError(f: Form) {
    "email" in f.touched && f.email == ""
  }

  /** "Bad email format": touched, typed, and rejected by the pattern. */
  ghost predicate EmailInvalid(f: Form) {
    "email" in f.touched && f.email != "" && !Email.Matches(f.email)
  }

  predicate PasswordError(f: Form) {
    "password" in f.touched && f.password == ""
  }

  /** At most one e-mail message shows at a time. */
  lemma EmailFlagsExclusive(f: Form)
    ensures !(EmailError(f) && EmailInvalid(f))
  {
  }

  /** Leaving the e-mail field marks it touched, so an empty one now shows its message. */
  function EmailBlur(f: Form): (g: Form)
    ensures g.touched == f.touched + {"email"} && g.(touched := f.touched) == f
    ensures EmailError(g) <==> f.email == ""
  {
    f.(touched := f.touched + {"email"})
  }

  /** Leaving the password field marks it touched, so an empty one now shows its message. */
  function PasswordBlur(f: Form): (g: Form)
    ensures g.touched == f.touched + {"password"} && g.(touched := f.touched) == f
    ensures PasswordError(g) <==> f.password == ""
  {
    f.(touched := f.touched + {"password"})
  }

  /** The submit gate: both fields typed and the e-mail well formed. */
  ghost predicate CanSubmit(f: Form) {
    f.email != "" && f.password != "" && Email.Matches(f.email)
  }

  /** `res.statusCode === 200` on the data the mutation resolved with. */
  predicate StatusOk(data: Value) {
    Prop(data, "statusCode") == Some(JNum(200.0))
  }

  /**
   * The result of a submission: the form, the storage, the requests sent,
   * whether the gateway sent the browser to /login, and whether the page
   * moved to /dashboard.
   */
  datatype Submission = Submission(form: Form, store: Store, sent: seq<Request>, redirect: bool, navigated: bool)

  /**
   * `handleSubmit` against a scripted network. A rejected mutation rejects
   * with a plain object, never an `Error`, so the generic message shows; a
   * `null` result makes the `statusCode` read throw a TypeError.
   */
  ghost function Submit(env: Env, st: Store, f: Form, replies: seq<Reply>): (r: Submission)
    ensures r.form.touched == {"email", "password"}
    ensures r.form.email == f.email && r.form.password == f.password
    ensures !(f.email != "" && f.password != "" && Email.Matches(f.email)) ==>
      r == Submission(f.(touched := {"email", "password"}), st, [], false, false)
    ensures f.email != "" && f.password != "" && Email.Matches(f.email) ==>
      var o := AuthEndpoints.Mutate(env, st, AuthEndpoints.Login, AuthEndpoints.Body(AuthApi.Credentials(f.email, f.password)), replies);
      && r.store == o.store && r.sent == o.sent && r.redirect == o.redirect
      && (r.navigated <==> o.result.result.QueryData? && StatusOk(o.result.result.data))
      && (o.result.result.QueryError? ==> !r.form.isLoading && r.form.errorMessage == GenericMessage)
      && (o.result.result == QueryData(JNull) ==> !r.form.isLoading && r.form.errorMessage == Message(TypeError))
      && (o.result.result.QueryData? && o.result.result.data != JNull ==> r.form.isLoading && r.form.errorMessage == "")
  {
    var touched := f.(touched := {"email", "password"});
    if f.email == "" || f.password == "" then Submission(touched, st, [], false, false)
    else if !Email.Matches(f.email) then Submission(touched, st, [], false, false)
    else
      var loading := touched.(isLoading := true, errorMessage := "");
      var o := AuthEndpoints.Mutate(env, st, AuthEndpoints.Login, AuthEndpoints.Body(AuthApi.Credentials(f.email, f.password)), replies);
      match o.result.result
      case QueryError(_, _) => Submission(loading.(isLoading := false, errorMessage := GenericMessage), o.store, o.sent, o.redirect, false)
      case QueryData(data) =>
        if data == JNull then
          Submission(loading.(isLoading := false, errorMessage := Message(TypeError)), o.store, o.sent, o.redirect, false)
        else Submission(loading, o.store, o.sent, o.redirect, StatusOk(data))
  }

  /** A login the server answers with anything but status code 200 leaves the page waiting, with nothing shown. */
  lemma NonOkStatusLeavesSpinner(env: Env, st: Store, f: Form, replies: seq<Reply>, data: Value)
    requires CanSubmit(f)
    requires |replies| >= 1 && replies[0].result == QueryData(data) && data != JNull && !StatusOk(data)
    ensures var r := Submit(env, st, f, replies);
      !r.navigated && r.form.isLoading && r.form.errorMessage == "" && |r.sent| == 1
  {
  }
}

=== FILE: numbers.dfy ===
/**
 * JavaScript numbers: a finite value or NaN, the conversion `Number(string)`
 * for decimal text, `String(number)`, and the arithmetic, comparisons and
 * `Math.min`/`Math.max` the client applies to them.
 */
module Numbers {
  import opened Wrappers
  import opened Text

  /** A JavaScript number. IEEE rounding and the infinities are not modelled. */
  datatype Number = Finite(value: real) | NaN

  function Int(i: int): Number {
    Finite(i as real)
  }

  predicate IsIntegral(n: Number) {
    n.Finite? && n.value == n.value.Floor as real
  }

  predicate IsDigit(c: char) {
    '0' <= c <= '9'
  }

  predicate AllDigits(s: string) {
    forall i :: 0 <= i < |s| ==> IsDigit(s[i])
  }

  function DigitValue(c: char): nat
    requires IsDigit(c)
  {
    c as int - '0' as int
  }

  function DigitChar(d: nat): (c: char)
    requires d < 10
    ensures IsDigit(c) && DigitValue(c) == d
  {
    ('0' as int + d) as char
  }

  /** The value of a string of decimal digits, most significant first. */
  function DigitsValue(ds: string): nat
    requires AllDigits(ds)
  {
    if ds == [] then 0 else DigitsValue(ds[..|ds| - 1]) * 10 + DigitValue(ds[|ds| - 1])
  }

  function Pow10(n: nat): (p: nat)
    ensures p >= 1
  {
    if n == 0 then 1 else 10 * Pow10(n - 1)
  }

  /** Unsigned decimal text: digits with at most one '.', and at least one digit. */
  predicate IsUnsignedDecimal(b: string) {
    || (|b| > 0 && AllDigits(b))
    || (exists k :: 0 <= k < |b| && b[k] == '.' && |b| > 1 && AllDigits(b[..k]) && AllDigits(b[k + 1..]))
  }

  /** Optionally signed unsigned decimal text. */
  predicate IsDecimalLiteral(t: string) {
    || IsUnsignedDecimal(t)
    || (|t| > 0 && (t[0] == '-' || t[0] == '+') && IsUnsignedDecimal(t[1..]))
  }

  lemma DotOccurs(b: string, j: nat)
    requires j < |b|
    ensures OccursAt(b, ".", j) <==> b[j] == '.'
  {
    if b[j] == '.' {
      assert b[j..j + 1] == ".";
    }
  }

  /** Without a dot, unsigned decimal text is a non-empty run of digits. */
  lemma NoDotCase(b: string)
    requires IndexOf(b, ".").None?
    ensures IsUnsignedDecimal(b) <==> |b| > 0 && AllDigits(b)
  {
    forall k | 0 <= k < |b| ensures b[k] != '.' { DotOccurs(b, k); }
  }

  /** No dot comes before the first one. */
  lemma NoDotBefore(b: string, k: nat)
    requires IndexOf(b, ".") == Some(k)
    ensures forall j :: 0 <= j < k ==> b[j] != '.'
  {
    forall j | 0 <= j < k ensures b[j] != '.' { DotOccurs(b, j); }
  }

  /** A dot at `k` keeps every prefix that reaches past it from being all digits. */
  lemma DotBreaksDigits(b: string, k: nat)
    requires k < |b| && b[k] == '.'
    ensures forall j :: k < j <= |b| ==> !AllDigits(b[..j])
  {
    forall j | k < j <= |b| ensures !AllDigits(b[..j]) {
      assert b[..j][k] == '.';
    }
  }

  /** With a first dot at `k`, unsigned decimal text is digits on both sides of it. */
  lemma DotCase(b: string, k: nat)
    requires IndexOf(b, ".") == Some(k)
    ensures k < |b| && b[k] == '.'
    ensures IsUnsignedDecimal(b) <==> |b| > 1 && AllDigits(b[..k]) && AllDigits(b[k + 1..])
  {
    DotOccurs(b, k);
    NoDotBefore(b, k);
    DotBreaksDigits(b, k);
    assert !AllDigits(b) by { assert !IsDigit(b[k]); }
  }

  lemma AllDigitsAppend(a: string, b: string)
    requires AllDigits(a) && AllDigits(b)
    ensures AllDigits(a + b)
  {
    assert forall k :: 0 <= k < |a + b| ==> (a + b)[k] == if k < |a| then a[k] else b[k - |a|];
  }

  /** Reading digits left to right: the left part is shifted by one place per digit of the right part. */
  lemma {:induction false} DigitsValueAppend(a: string, b: string)
    requires AllDigits(a) && AllDigits(b)
    ensures AllDigits(a + b)
    ensures DigitsValue(a + b) == DigitsValue(a) * Pow10(|b|) + DigitsValue(b)
  {
    AllDigitsAppend(a, b);
    if b == [] {
      assert a + b == a;
    } else {
      var c := b[..|b| - 1];
      var d := DigitValue(b[|b| - 1]);
      assert (a + b)[..|a + b| - 1] == a + c;
      assert (a + b)[|a + b| - 1] == b[|b| - 1];
      DigitsValueAppend(a, c);
      assert DigitsValue(a + b) == DigitsValue(a + c) * 10 + d;
      assert DigitsValue(b) == DigitsValue(c) * 10 + d;
      ShiftStep(DigitsValue(a), DigitsValue(c), Pow10(|c|), d);
    }
  }

  lemma ShiftStep(x: int, y: int, n: int, d: int)
    ensures (x * n + y) * 10 + d == x * (10 * n) + (y * 10 + d)
  {
  }

  /** With its point at `k`, text `b` denotes `v`: the digits on both sides read as one number, shifted right past the fraction. */
  predicate DenotesAt(b: string, k: nat, v: real) {
    && k < |b|
    && var ds := b[..k] + b[k + 1..];
    && AllDigits(ds)
    && v == DigitsValue(ds) as real / Pow10(|b| - k - 1) as real
  }

  /**
   * `v` is the value that unsigned decimal text `b` denotes: a run of digits
   * is its whole number, and text with a point is its digits read as a whole
   * number divided by ten for each digit after the point.
   */
  ghost predicate Denotes(b: string, v: real) {
    || (AllDigits(b) && v == DigitsValue(b) as real)
    || (exists k: nat :: k < |b| && b[k] == '.' && DenotesAt(b, k, v))
  }

  /** The same for optionally signed text. */
  ghost predicate DenotesSigned(t: string, v: real) {
    if |t| > 0 && t[0] == '-' then Denotes(t[1..], -v)
    else if |t| > 0 && t[0] == '+' then Denotes(t[1..], v)
    else Denotes(t, v)
  }

  /** Scaling a whole part plus a fraction back up. */
  lemma ScaleBack(x: int, y: int, n: int)
    requires n > 0
    ensures x as real + y as real / n as real == (x * n + y) as real / n as real
  {
    assert (x * n) as real == x as real * n as real;
  }

  /** Digits, a point and digits denote the whole part plus the fraction. */
  lemma FractionDenotes(b: string, k: nat)
    requires k < |b| && b[k] == '.' && AllDigits(b[..k]) && AllDigits(b[k + 1..])
    ensures DenotesAt(b, k, DigitsValue(b[..k]) as real + DigitsValue(b[k + 1..]) as real / Pow10(|b| - k - 1) as real)
    ensures Denotes(b, DigitsValue(b[..k]) as real + DigitsValue(b[k + 1..]) as real / Pow10(|b| - k - 1) as real)
    ensures DigitsValue(b[..k]) as real + DigitsValue(b[k + 1..]) as real / Pow10(|b| - k - 1) as real >= 0.0
  {
    FractionValue(b[..k], b[k + 1..]);
    DigitsBelowPow10(b[k + 1..]);
    FractionBelowOne(DigitsValue(b[k + 1..]), Pow10(|b| - k - 1));
  }

  /** Whole digits `ip` and fraction digits `fp` read together, shifted past the fraction. */
  lemma FractionValue(ip: string, fp: string)
    requires AllDigits(ip) && AllDigits(fp)
    ensures AllDigits(ip + fp)
    ensures DigitsValue(ip) as real + DigitsValue(fp) as real / Pow10(|fp|) as real
         == DigitsValue(ip + fp) as real / Pow10(|fp|) as real
  {
    DigitsValueAppend(ip, fp);
    ScaleBack(DigitsValue(ip), DigitsValue(fp), Pow10(|fp|));
  }

  /** `k` digits are worth less than `10^k`. */
  lemma {:induction false} DigitsBelowPow10(ds: string)
    requires AllDigits(ds)
    ensures DigitsValue(ds) < Pow10(|ds|)
  {
    if ds != [] {
      DigitsBelowPow10(ds[..|ds| - 1]);
    }
  }

  /** A whole number below `n` divided by `n` is a fraction in [0, 1). */
  lemma FractionBelowOne(y: nat, n: nat)
    requires y < n
    ensures 0.0 <= y as real / n as real < 1.0
  {
  }

  /**
   * The point separates the whole part: text with its point at `k` denotes a
   * value at least the digits before the point and less than one more.
   */
  lemma PointSeparatesWholePart(b: string, k: nat, v: real)
    requires DenotesAt(b, k, v)
    ensures AllDigits(b[..k]) && AllDigits(b[k + 1..])
    ensures DigitsValue(b[..k]) as real <= v < DigitsValue(b[..k]) as real + 1.0
  {
    var ds := b[..k] + b[k + 1..];
    assert forall i :: 0 <= i < k ==> ds[i] == b[i];
    assert forall i :: k < i < |b| ==> ds[i - 1] == b[i];
    FractionValue(b[..k], b[k + 1..]);
    DigitsBelowPow10(b[k + 1..]);
    FractionBelowOne(DigitsValue(b[k + 1..]), Pow10(|b| - k - 1));
  }

  /** A point anywhere but at `k` stays among the digits read with the point at `k`. */
  lemma OnePoint(b: string, k: nat, j: nat)
    requires k < |b| && j < |b| && b[j] == '.' && AllDigits(b[..k] + b[k + 1..])
    ensures j == k
  {
    var ds := b[..k] + b[k + 1..];
    assert forall i :: 0 <= i < k ==> ds[i] == b[i];
    assert forall i :: k < i < |b| ==> ds[i - 1] == b[i];
  }

  /** A run of digits denotes its whole number and nothing else. */
  lemma DigitsDenote(b: string, v: real)
    requires AllDigits(b) && Denotes(b, v)
    ensures v == DigitsValue(b) as real
  {
    forall k: nat | k < |b| ensures b[k] != '.' { assert IsDigit(b[k]); }
  }

  /** Decimal text denotes one value only. */
  lemma DenotesUnique(b: string, v: real, w: real)
    requires Denotes(b, v) && Denotes(b, w)
    ensures v == w
  {
    if AllDigits(b) {
      DigitsDenote(b, v);
      DigitsDenote(b, w);
    } else {
      var k: nat :| k < |b| && b[k] == '.' && DenotesAt(b, k, v);
      var j: nat :| j < |b| && b[j] == '.' && DenotesAt(b, j, w);
      OnePoint(b, k, j);
      assert DenotesAt(b, k, w);
    }
  }

  /** The value of unsigned decimal text, or None when it is not such text. */
  function ParseUnsigned(b: string): (r: Option<real>)
    ensures r.Some? <==> IsUnsignedDecimal(b)
    ensures r.Some? ==> r.value >= 0.0 && Denotes(b, r.value)
  {
    match IndexOf(b, ".")
    case None =>
      NoDotCase(b);
      if |b| > 0 && AllDigits(b) then Some(DigitsValue(b) as real) else None
    case Some(k) =>
      DotCase(b, k);
      var ip := b[..k];
      var fp := b[k + 1..];
      if |b| > 1 && AllDigits(ip) && AllDigits(fp) then
        FractionDenotes(b, k);
        Some(DigitsValue(ip) as real + DigitsValue(fp) as real / Pow10(|fp|) as real)
      else None
  }

  /**
   * `Number(s)` for a string: surrounding whitespace is ignored, blank text is
   * 0, decimal text is its value, and anything else is NaN.
   */
  function ParseNumber(s: string): (n: Number)
    ensures n.Finite? <==> AllSpace(s) || IsDecimalLiteral(Trim(s))
    ensures AllSpace(s) ==> n == Finite(0.0)
    ensures n.Finite? && n.value < 0.0 ==> Trim(s)[0] == '-'
    ensures IsDecimalLiteral(Trim(s)) ==> n.Finite? && DenotesSigned(Trim(s), n.value)
  {
    ParseSigned(Trim(s))
  }

  /** A string led by a character other than a digit or '.' is not unsigned decimal text. */
  lemma BadLead(t: string)
    requires |t| > 0 && !IsDigit(t[0]) && t[0] != '.'
    ensures !IsUnsignedDecimal(t)
  {
    forall k | 0 < k <= |t| ensures !AllDigits(t[..k]) {
      assert t[..k][0] == t[0];
    }
  }

  /** `Number` of already trimmed text: empty is 0, then an optional sign and unsigned decimal text. */
  function ParseSigned(t: string): (n: Number)
    ensures n.Finite? <==> t == [] || IsDecimalLiteral(t)
    ensures t == [] ==> n == Finite(0.0)
    ensures n.Finite? && n.value < 0.0 ==> t[0] == '-'
    ensures IsDecimalLiteral(t) ==> n.Finite? && DenotesSigned(t, n.value)
  {
    if t == [] then Finite(0.0)
    else if t[0] == '-' || t[0] == '+' then
      BadLead(t);
      match ParseUnsigned(t[1..])
      case Some(v) => if t[0] == '-' then Finite(-v) else Finite(v)
      case None => NaN
    else
      match ParseUnsigned(t)
      case Some(v) => Finite(v)
      case None => NaN
  }

  /** Decimal digits of a natural number, without leading zeros. */
  function NatToString(n: nat): (s: string)
    ensures |s| > 0 && AllDigits(s)
    ensures n > 0 ==> s[0] != '0'
  {
    if n < 10 then [DigitChar(n)] else NatToString(n / 10) + [DigitChar(n % 10)]
  }

  /** `String(i)` for an integer-valued number. */
  function IntToString(i: int): (s: string)
    ensures |s| > 0 && !IsSpace(s[0]) && !IsSpace(s[|s| - 1])
    ensures i < 0 <==> s[0] == '-'
  {
    if i < 0 then "-" + NatToString(-i) else NatToString(i)
  }

  lemma {:induction false} NatToStringValue(n: nat)
    ensures DigitsValue(NatToString(n)) == n
  {
    if n >= 10 {
      NatToStringValue(n / 10);
      var s := NatToString(n);
      assert s[..|s| - 1] == NatToString(n / 10);
    }
  }

  /** `Number(String(i)) == i` for every integer. */
  lemma IntToStringRoundTrip(i: int)
    ensures ParseNumber(IntToString(i)) == Int(i)
  {
    var s := IntToString(i);
    TrimIdentity(s);
    var ds := NatToString(if i < 0 then -i else i);
    NatToStringValue(if i < 0 then -i else i);
    assert IndexOf(ds, ".").None? by {
      if IndexOf(ds, ".").Some? {
        var k := IndexOf(ds, ".").value;
        DotOccurs(ds, k);
      }
    }
    if i < 0 {
      assert s[1..] == ds;
    }
  }

  lemma NoDigitsNotDecimal(b: string)
    requires forall i :: 0 <= i < |b| ==> !IsDigit(b[i])
    ensures !IsUnsignedDecimal(b)
  {
    if |b| > 0 {
      assert !IsDigit(b[0]);
    }
    forall k | 0 <= k < |b| && b[k] == '.' && |b| > 1
      ensures !(AllDigits(b[..k]) && AllDigits(b[k + 1..]))
    {
      if k > 0 {
        assert b[..k][0] == b[0];
      } else {
        assert b[k + 1..][0] == b[1];
      }
    }
  }

  /** Text without digits reads as NaN. */
  lemma ParseNonNumeric(s: string)
    requires |s| > 0 && !IsSpace(s[0]) && !IsSpace(s[|s| - 1])
    requires forall i :: 0 <= i < |s| ==> !IsDigit(s[i])
    ensures ParseNumber(s) == NaN
  {
    TrimIdentity(s);
    NoDigitsNotDecimal(s);
    NoDigitsNotDecimal(s[1..]);
  }

  /** 10^21: from this magnitude on, `String` prints whole numbers in exponent form ("1e+21"). */
  const ExponentFrom: int := 1_000_000_000_000_000_000_000

  /** Whole numbers that `String` prints as plain decimal digits. */
  predicate PrintsAsDigits(n: Number) {
    IsIntegral(n) && -ExponentFrom as real < n.value < ExponentFrom as real
  }

  /**
   * `String(n)`: whole numbers below 10^21 in magnitude print as their digits,
   * NaN as "NaN", and any other number as some text that `Number` reads back
   * as the same number.
   */
  ghost function NumberToString(n: Number): (s: string)
    ensures PrintsAsDigits(n) ==> s == IntToString(n.value.Floor)
    ensures (exists t :: ParseNumber(t) == n) ==> ParseNumber(s) == n
  {
    if n.NaN? then
      ParseNonNumeric("NaN");
      "NaN"
    else if PrintsAsDigits(n) then
      IntToStringRoundTrip(n.value.Floor);
      IntToString(n.value.Floor)
    else if exists t :: ParseNumber(t) == n then
      var t :| ParseNumber(t) == n; t
    else "NaN"
  }

  lemma ParseMinusOne()
    ensures ParseNumber("-1") == Finite(-1.0)
  {
    IntToStringRoundTrip(-1);
  }

  lemma ParseZero()
    ensures ParseNumber("0") == Finite(0.0)
  {
    IntToStringRoundTrip(0);
  }

  lemma ParseLetters()
    ensures ParseNumber("abc") == NaN
  {
    ParseNonNumeric("abc");
  }

  // Arithmetic and comparisons with JavaScript's NaN propagation.

  function Add(a: Number, b: Number): Number {
    if a.Finite? && b.Finite? then Finite(a.value + b.value) else NaN
  }

  function Sub(a: Number, b: Number): Number {
    if a.Finite? && b.Finite? then Finite(a.value - b.value) else NaN
  }

  function Mul(a: Number, b: Number): Number {
    if a.Finite? && b.Finite? then Finite(a.value * b.value) else NaN
  }

  /** `a < b`; every comparison with NaN is false. */
  predicate Less(a: Number, b: Number) {
    a.Finite? && b.Finite? && a.value < b.value
  }

  predicate AtMost(a: Number, b: Number) {
    a.Finite? && b.Finite? && a.value <= b.value
  }

  /** `Math.min(a, b)`. */
  function Min(a: Number, b: Number): Number {
    if a.NaN? || b.NaN? then NaN else if a.value <= b.value then a else b
  }

  /** `Math.max(a, b)`. */
  function Max(a: Number, b: Number): Number {
    if a.NaN? || b.NaN? then NaN else if a.value >= b.value then a else b
  }

  /** The array length `Array.from({length: n})` produces (the 2^53 cap is not modelled). */
  function ToLength(n: Number): nat {
    if n.NaN? || n.value <= 0.0 then 0 else n.value.Floor
  }
}

=== FILE: products_api.dfy ===
/**
 * The product request helpers of lib/products-api.ts: the generic JSON
 * fetch with its header merge and error message, the tolerant parser for
 * paginated list bodies, and the product and category endpoints.
 *
 * lib/products-api.ts imports `getApiUrl` and `getToken` from lib/auth-api.ts,
 * which declares both without exporting them. The helpers below repair the
 * import: they bind the two names to those declarations. `Invoke` with
 * `Unresolved` is what the file does as it stands.
 */
module ProductsApi {
  import opened Wrappers
  import opened Numbers
  import opened Json
  import opened Session
  import opened Http
  import Text
  import AuthApi

  /** Pagination metadata as the client keeps it. */
  datatype Pagination = Pagination(
    currentPage: Number, totalPages: Number, totalCount: Number, pageSize: Number,
    hasPreviousPage: bool, hasNextPage: bool)

  /** `PaginatedResult<T>`: the page's items and its metadata, or null metadata. */
  datatype Paginated = Paginated(data: seq<Value>, pagination: Option<Pagination>)

  /**
   * The headers `fetchJson` sends: JSON content type, the bearer token when
   * one is stored, and then the caller's own headers, which win.
   */
  function FetchHeaders(env: Env, st: Store, extra: map<string, string>): (h: map<string, string>)
    ensures forall k :: k in extra ==> k in h && h[k] == extra[k]
    ensures "Content-Type" !in extra ==> "Content-Type" in h && h["Content-Type"] == "application/json"
    ensures "Authorization" !in extra ==>
      && ("Authorization" in h <==> Filled(GetToken(env, st)))
      && ("Authorization" in h ==> h["Authorization"] == "Bearer " + GetToken(env, st).value)
    ensures forall k :: k in h ==> k in extra || k == "Content-Type" || k == "Authorization"
  {
    BearerHeaders(env, st) + extra
  }

  const RequestFailed := "Error en la solicitud."

  /**
   * `fetchJson(url, options)`. An unparsable body counts as `{}`; a failed
   * status throws the body's `message` or the fixed fallback; a JSON `null`
   * body on a failed status makes the `message` read itself throw.
   */
  ghost function FetchJson(reply: FetchReply): (r: Result<Value, Thrown>)
    ensures reply.NetworkFailure? ==> r == Err(TypeError)
    ensures r.Ok? <==> reply.Response? && IsOk(reply.status)
    ensures r.Ok? ==> r.value == reply.body.GetOr(JObj([]))
    ensures reply.Response? && !IsOk(reply.status) && reply.body.None? ==> r == Err(Error(RequestFailed))
    ensures reply.Response? && !IsOk(reply.status) && reply.body == Some(JNull) ==> r == Err(TypeError)
    ensures reply.Response? && !IsOk(reply.status) && reply.body.Some? && reply.body.value != JNull ==>
      var m := Prop(reply.body.value, "message");
      r == Err(Error(if Defined(m) then ToStr(m.value) else RequestFailed))
  {
    match reply
    case NetworkFailure => Err(TypeError)
    case Response(status, _, body) =>
      var data := body.GetOr(JObj([]));
      if IsOk(status) then Ok(data)
      else if data == JNull then Err(TypeError)
      else Err(Error(BodyMessage(data, RequestFailed)))
  }

  /** The request `fetchJson` sends. */
  function FetchRequest(env: Env, st: Store, verb: string, url: string, body: Option<Value>): Request {
    Request(verb, url, FetchHeaders(env, st, map[]), body)
  }

  /** The items of the first array-valued field, in field order, or none. */
  function FirstArray(fs: seq<(string, Value)>): (items: seq<Value>)
    ensures (forall i :: 0 <= i < |fs| ==> !fs[i].1.JArr?) ==> items == []
    ensures (exists i :: 0 <= i < |fs| && fs[i].1.JArr?) ==>
      exists i :: 0 <= i < |fs| && fs[i].1.JArr? && items == fs[i].1.items && forall j :: 0 <= j < i ==> !fs[j].1.JArr?
  {
    if fs == [] then []
    else if fs[0].1.JArr? then fs[0].1.items
    else
      var rest := FirstArray(fs[1..]);
      assert forall j :: 1 <= j < |fs| ==> fs[j] == fs[1..][j - 1];
      rest
  }

  /** `obj.camel ?? obj.Pascal ?? default`, converted with `Number`. */
  function FieldNumber(fs: seq<(string, Value)>, camel: string, pascal: string, default: Number): Number {
    match OrElse(Get(fs, camel), Get(fs, pascal))
    case Some(v) => if v == JNull then default else ToNumber(v)
    case None => default
  }

  /** `Boolean(obj.camel ?? obj.Pascal ?? false)`. */
  predicate FieldFlag(fs: seq<(string, Value)>, camel: string, pascal: string) {
    match OrElse(Get(fs, camel), Get(fs, pascal))
    case Some(v) => Truthy(v)
    case None => false
  }

  /** The precedence every pagination field follows: camelCase, then PascalCase, then the default. */
  predicate NumberRule(fs: seq<(string, Value)>, camel: string, pascal: string, default: Number, n: Number) {
    && (Defined(Get(fs, camel)) ==> n == ToNumber(Get(fs, camel).value))
    && (!Defined(Get(fs, camel)) && Defined(Get(fs, pascal)) ==> n == ToNumber(Get(fs, pascal).value))
    && (!Defined(Get(fs, camel)) && !Defined(Get(fs, pascal)) ==> n == default)
  }

  predicate FlagRule(fs: seq<(string, Value)>, camel: string, pascal: string, flag: bool) {
    && (Defined(Get(fs, camel)) ==> flag == Truthy(Get(fs, camel).value))
    && (!Defined(Get(fs, camel)) && Defined(Get(fs, pascal)) ==> flag == Truthy(Get(fs, pascal).value))
    && (!Defined(Get(fs, camel)) && !Defined(Get(fs, pascal)) ==> !flag)
  }

  /** The item list of an object body: its `data` array, else its first array field, else none. */
  function ItemsOf(fs: seq<(string, Value)>): (items: seq<Value>)
    ensures Get(fs, "data").Some? && Get(fs, "data").value.JArr? ==> items == Get(fs, "data").value.items
    ensures !(Get(fs, "data").Some? && Get(fs, "data").value.JArr?) ==> items == FirstArray(fs)
  {
    var d := Get(fs, "data");
    if d.Some? && d.value.JArr? then d.value.items else FirstArray(fs)
  }

  /**
   * The metadata of an object body, read field by field: every number
   * through camelCase, then PascalCase, then its default (1, 1, the item
   * count, `perPage`), and the two flags the same way with default false.
   */
  function ReadPagination(fs: seq<(string, Value)>, count: nat, perPage: Number): (p: Pagination)
    ensures NumberRule(fs, "currentPage", "CurrentPage", Int(1), p.currentPage)
    ensures NumberRule(fs, "totalPages", "TotalPages", Int(1), p.totalPages)
    ensures NumberRule(fs, "totalCount", "TotalCount", Int(count), p.totalCount)
    ensures NumberRule(fs, "pageSize", "PageSize", perPage, p.pageSize)
    ensures FlagRule(fs, "hasPreviousPage", "HasPreviousPage", p.hasPreviousPage)
    ensures FlagRule(fs, "hasNextPage", "HasNextPage", p.hasNextPage)
  {
    Pagination(
      FieldNumber(fs, "currentPage", "CurrentPage", Int(1)),
      FieldNumber(fs, "totalPages", "TotalPages", Int(1)),
      FieldNumber(fs, "totalCount", "TotalCount", Int(count)),
      FieldNumber(fs, "pageSize", "PageSize", perPage),
      FieldFlag(fs, "hasPreviousPage", "HasPreviousPage"),
      FieldFlag(fs, "hasNextPage", "HasNextPage"))
  }

  /**
   * `parsePaginated(body, perPage)`: a bare array is the item list with no
   * metadata; an object yields its items and metadata; anything else is an
   * empty page with no metadata.
   */
  function ParsePaginated(body: Value, perPage: Number): (r: Paginated)
    ensures body.JArr? ==> r == Paginated(body.items, None)
    ensures !body.JArr? && !body.JObj? ==> r == Paginated([], None)
    ensures body.JObj? ==>
      r.data == ItemsOf(body.fields) && r.pagination == Some(ReadPagination(body.fields, |r.data|, perPage))
  {
    match body
    case JArr(xs) => Paginated(xs, None)
    case JObj(fs) =>
      var items := ItemsOf(fs);
      Paginated(items, Some(ReadPagination(fs, |items|, perPage)))
    case _ => Paginated([], None)
  }

  /**
   * The navigation flags are copied from the body, never derived from the
   * page numbers: an object body that names neither flag reports neither a
   * previous nor a next page, whatever its current and total pages say.
   */
  lemma FlagsAreNotDerived(fs: seq<(string, Value)>, perPage: Number)
    requires Get(fs, "hasPreviousPage").None? && Get(fs, "HasPreviousPage").None?
    requires Get(fs, "hasNextPage").None? && Get(fs, "HasNextPage").None?
    ensures var p := ParsePaginated(JObj(fs), perPage).pagination;
      p.Some? && !p.value.hasPreviousPage && !p.value.hasNextPage
  {
  }

  /**
   * A body without the camelCase name is read through the PascalCase one:
   * `CurrentPage` and `TotalCount` stand in for `currentPage` and `totalCount`.
   */
  lemma PascalCaseFallback(fs: seq<(string, Value)>, perPage: Number, page: Value, count: Value)
    requires Get(fs, "currentPage").None? && Get(fs, "CurrentPage") == Some(page) && page != JNull
    requires Get(fs, "totalCount").None? && Get(fs, "TotalCount") == Some(count) && count != JNull
    ensures var p := ParsePaginated(JObj(fs), perPage).pagination;
      p.Some? && p.value.currentPage == ToNumber(page) && p.value.totalCount == ToNumber(count)
  {
  }

  /** With neither spelling of a number present, its default applies: page 1 of 1, sized `perPage`. */
  lemma AbsentFieldsDefault(fs: seq<(string, Value)>, perPage: Number)
    requires forall i :: 0 <= i < |fs| ==> fs[i].0 !in {"currentPage", "CurrentPage", "totalPages", "TotalPages", "pageSize", "PageSize"}
    ensures var p := ParsePaginated(JObj(fs), perPage).pagination;
      p.Some? && p.value.currentPage == Int(1) && p.value.totalPages == Int(1) && p.value.pageSize == perPage
  {
  }

  /** `${getApiUrl()}/product?page=P&perPage=N&sortOrder=S`. */
  ghost function ProductsUrl(env: Env, page: Number, perPage: Number, sortOrder: string): string {
    AuthApi.GetApiUrl(env) + "/product?page=" + NumberToString(page)
      + "&perPage=" + NumberToString(perPage) + "&sortOrder=" + sortOrder
  }

  /** One request helper call: the request sent and the value returned or thrown. */
  datatype Exchange<+T> = Exchange(sent: Request, result: Result<T, Thrown>)

  /** `getProducts(page, perPage, sortOrder)`: a GET of the list, parsed with `perPage` as the size default. */
  ghost function GetProducts(env: Env, st: Store, page: Number, perPage: Number, sortOrder: string, reply: FetchReply): (x: Exchange<Paginated>)
    ensures x.sent == FetchRequest(env, st, "GET", ProductsUrl(env, page, perPage, sortOrder), None)
    ensures x.result.Ok? <==> FetchJson(reply).Ok?
    ensures x.result.Ok? ==> x.result.value == ParsePaginated(FetchJson(reply).value, perPage)
    ensures x.result.Err? ==> x.result.error == FetchJson(reply).error
  {
    var req := FetchRequest(env, st, "GET", ProductsUrl(env, page, perPage, sortOrder), None);
    match FetchJson(reply)
    case Ok(data) => Exchange(req, Ok(ParsePaginated(data, perPage)))
    case Err(e) => Exchange(req, Err(e))
  }

  /** For whole numbers below 10^21 in magnitude the list URL spells the numbers out in decimal. */
  lemma ProductsUrlDigits(env: Env, page: int, perPage: int, sortOrder: string)
    requires -ExponentFrom < page < ExponentFrom && -ExponentFrom < perPage < ExponentFrom
    ensures ProductsUrl(env, Int(page), Int(perPage), sortOrder)
         == AuthApi.GetApiUrl(env) + "/product?page=" + IntToString(page)
            + "&perPage=" + IntToString(perPage) + "&sortOrder=" + sortOrder
  {
    assert PrintsAsDigits(Int(page)) && Int(page).value.Floor == page;
    assert NumberToString(Int(page)) == IntToString(page);
    assert PrintsAsDigits(Int(perPage)) && Int(perPage).value.Floor == perPage;
    assert NumberToString(Int(perPage)) == IntToString(perPage);
  }

  /**
   * The created product `createProduct` returns: `data.data` when the body
   * has a `data` key (even a null one), the body itself for an object
   * without one or an array; the `in` test throws on any other body.
   */
  function Unwrap(data: Value): (r: Result<Value, Thrown>)
    ensures data.JObj? && Get(data.fields, "data").Some? ==> r == Ok(Get(data.fields, "data").value)
    ensures data.JObj? && Get(data.fields, "data").None? ==> r == Ok(data)
    ensures data.JArr? ==> r == Ok(data)
    ensures !data.JObj? && !data.JArr? ==> r == Err(TypeError)
  {
    match data
    case JObj(fs) =>
      (match Get(fs, "data")
       case Some(inner) => Ok(inner)
       case None => Ok(data))
    case JArr(_) => Ok(data)
    case _ => Err(TypeError)
  }

  /** `createProduct(body)`: POST /product, then the unwrapped result. */
  ghost function CreateProduct(env: Env, st: Store, payload: Value, reply: FetchReply): (x: Exchange<Value>)
    ensures x.sent == FetchRequest(env, st, "POST", AuthApi.GetApiUrl(env) + "/product", Some(payload))
    ensures FetchJson(reply).Err? ==> x.result == Err(FetchJson(reply).error)
    ensures FetchJson(reply).Ok? ==> x.result == Unwrap(FetchJson(reply).value)
  {
    var req := FetchRequest(env, st, "POST", AuthApi.GetApiUrl(env) + "/product", Some(payload));
    match FetchJson(reply)
    case Ok(data) => Exchange(req, Unwrap(data))
    case Err(e) => Exchange(req, Err(e))
  }

  /** `updateProduct(id, body)`: PUT /product?id=ID. */
  ghost function UpdateProduct(env: Env, st: Store, id: Number, payload: Value, reply: FetchReply): (x: Exchange<()>)
    ensures x.sent == FetchRequest(env, st, "PUT", AuthApi.GetApiUrl(env) + "/product?id=" + NumberToString(id), Some(payload))
    ensures x.result.Ok? <==> FetchJson(reply).Ok?
    ensures x.result.Err? ==> x.result.error == FetchJson(reply).error
  {
    var req := FetchRequest(env, st, "PUT", AuthApi.GetApiUrl(env) + "/product?id=" + NumberToString(id), Some(payload));
    match FetchJson(reply)
    case Ok(_) => Exchange(req, Ok(()))
    case Err(e) => Exchange(req, Err(e))
  }

  /** `deleteProduct(id)`: DELETE /product?id=ID without a body. */
  ghost function DeleteProduct(env: Env, st: Store, id: Number, reply: FetchReply): (x: Exchange<()>)
    ensures x.sent == FetchRequest(env, st, "DELETE", AuthApi.GetApiUrl(env) + "/product?id=" + NumberToString(id), None)
    ensures x.result.Ok? <==> FetchJson(reply).Ok?
    ensures x.result.Err? ==> x.result.error == FetchJson(reply).error
  {
    var req := FetchRequest(env, st, "DELETE", AuthApi.GetApiUrl(env) + "/product?id=" + NumberToString(id), None);
    match FetchJson(reply)
    case Ok(_) => Exchange(req, Ok(()))
    case Err(e) => Exchange(req, Err(e))
  }

  /** `getProductCategories(page, perPage)`: GET /product-category?page=P&perPage=N. */
  ghost function GetProductCategories(env: Env, st: Store, page: Number, perPage: Number, reply: FetchReply): (x: Exchange<Paginated>)
    ensures x.sent == FetchRequest(env, st, "GET", AuthApi.GetApiUrl(env) + "/product-category?page=" + NumberToString(page) + "&perPage=" + NumberToString(perPage), None)
    ensures x.result.Ok? <==> FetchJson(reply).Ok?
    ensures x.result.Ok? ==> x.result.value == ParsePaginated(FetchJson(reply).value, perPage)
    ensures x.result.Err? ==> x.result.error == FetchJson(reply).error
  {
    var url := AuthApi.GetApiUrl(env) + "/product-category?page=" + NumberToString(page) + "&perPage=" + NumberToString(perPage);
    var req := FetchRequest(env, st, "GET", url, None);
    match FetchJson(reply)
    case Ok(data) => Exchange(req, Ok(ParsePaginated(data, perPage)))
    case Err(e) => Exchange(req, Err(e))
  }

  /** Both list helpers read the same reply into the same page and fail with the same error. */
  lemma ListsParseAlike(env: Env, st: Store, page: Number, perPage: Number, sortOrder: string, reply: FetchReply)
    ensures GetProducts(env, st, page, perPage, sortOrder, reply).result
         == GetProductCategories(env, st, page, perPage, reply).result
  {
  }

  /**
   * A failed status whose body carries a `message` throws that message from
   * every fetch helper alike: `fetchJson` here and `login`, `register` and
   * `createOrganization` in lib/auth-api.ts.
   */
  lemma FailureMessageShared(env: Env, st: Store, reply: FetchReply, email: string, password: string, body: Value, name: string, code: string)
    requires reply.Response? && !IsOk(reply.status) && reply.body.Some?
    requires Defined(AuthApi.MessageProp(reply.body.value))
    ensures var e := Error(ToStr(AuthApi.MessageProp(reply.body.value).value));
      && FetchJson(reply) == Err(e)
      && AuthApi.Login(env, st, email, password, reply).result == Err(e)
      && AuthApi.Register(env, st, body, reply).result == Err(e)
      && AuthApi.CreateOrganization(env, st, name, code, reply).result == Err(e)
  {
  }

  /**
   * `createProduct` and `createOrganization` unwrap a successful object body
   * alike unless its `data` is null: then the product helper returns the null
   * and the organization helper the whole body.
   */
  lemma CreatedValuesAgree(env: Env, st: Store, payload: Value, name: string, code: string, reply: FetchReply)
    requires reply.Response? && IsOk(reply.status) && reply.body.Some? && reply.body.value.JObj?
    ensures var p := CreateProduct(env, st, payload, reply).result;
      var o := AuthApi.CreateOrganization(env, st, name, code, reply).result;
      && (Get(reply.body.value.fields, "data") != Some(JNull) ==> p == o)
      && (Get(reply.body.value.fields, "data") == Some(JNull) ==> p == Ok(JNull) && o == Ok(reply.body.value))
  {
  }

  /** Updating and deleting address the same product URL and succeed on the same replies. */
  lemma UpdateDeleteSameTarget(env: Env, st: Store, id: Number, payload: Value, reply: FetchReply)
    ensures var u := UpdateProduct(env, st, id, payload, reply);
      var d := DeleteProduct(env, st, id, reply);
      && u.sent.url == d.sent.url && u.sent.headers == d.sent.headers
      && u.sent.verb == "PUT" && d.sent.verb == "DELETE"
      && u.sent.body == Some(payload) && d.sent.body.None?
      && u.result == d.result
  {
  }

  /**
   * How the names `getApiUrl` and `getToken` resolve in lib/products-api.ts:
   * `Unresolved` as the file stands (lib/auth-api.ts does not export them),
   * `Resolved` with the import repaired.
   */
  datatype Import = Unresolved | Resolved

  /**
   * Calling a helper whose repaired behaviour is `x`: the requests it sends
   * and what it returns or throws. With the names unresolved, the helper's
   * first step calls `undefined`, which throws a TypeError before `fetch`.
   */
  function Invoke<T>(imports: Import, x: Exchange<T>): (seq<Request>, Result<T, Thrown>) {
    match imports
    case Unresolved => ([], Err(TypeError))
    case Resolved => ([x.sent], x.result)
  }

  /** Appending keeps a prefix. */
  lemma Extends(s: string, a: string, t: string)
    requires Text.StartsWith(s, a)
    ensures Text.StartsWith(s + t, a)
  {
  }

  /** A request built on both imported names, and what becomes of it with each binding. */
  lemma BuiltFromImports<T>(env: Env, st: Store, x: Exchange<T>, verb: string, url: string, body: Option<Value>)
    requires x.sent == FetchRequest(env, st, verb, url, body) && Text.StartsWith(url, AuthApi.GetApiUrl(env))
    ensures Text.StartsWith(x.sent.url, AuthApi.GetApiUrl(env)) && x.sent.headers == FetchHeaders(env, st, map[])
    ensures Invoke(Unresolved, x) == ([], Err(TypeError)) && Invoke(Resolved, x) == ([x.sent], x.result)
  {
  }

  /**
   * The import mismatch for every helper. Each repaired request is built
   * from both imported names: its URL starts with `getApiUrl()` and its
   * headers carry `getToken()`. So as the file stands, no helper sends
   * anything and each throws a TypeError, whatever the server would have
   * answered; a 2xx reply to the list that the repaired helper turns into
   * a page is never even requested.
   */
  lemma UnexportedImportsBreakHelpers(env: Env, st: Store, page: Number, perPage: Number, sortOrder: string,
                                      id: Number, payload: Value, reply: FetchReply)
    ensures var x := GetProducts(env, st, page, perPage, sortOrder, reply);
      && Text.StartsWith(x.sent.url, AuthApi.GetApiUrl(env)) && x.sent.headers == FetchHeaders(env, st, map[])
      && Invoke(Unresolved, x) == ([], Err(TypeError)) && Invoke(Resolved, x).0 == [x.sent]
      && (reply.Response? && IsOk(reply.status) ==> Invoke(Resolved, x).1.Ok?)
    ensures var x := GetProductCategories(env, st, page, perPage, reply);
      && Text.StartsWith(x.sent.url, AuthApi.GetApiUrl(env)) && x.sent.headers == FetchHeaders(env, st, map[])
      && Invoke(Unresolved, x) == ([], Err(TypeError)) && Invoke(Resolved, x).0 == [x.sent]
    ensures var x := CreateProduct(env, st, payload, reply);
      && Text.StartsWith(x.sent.url, AuthApi.GetApiUrl(env)) && x.sent.headers == FetchHeaders(env, st, map[])
      && Invoke(Unresolved, x) == ([], Err(TypeError)) && Invoke(Resolved, x).0 == [x.sent]
    ensures var x := UpdateProduct(env, st, id, payload, reply);
      && Text.StartsWith(x.sent.url, AuthApi.GetApiUrl(env)) && x.sent.headers == FetchHeaders(env, st, map[])
      && Invoke(Unresolved, x) == ([], Err(TypeError)) && Invoke(Resolved, x).0 == [x.sent]
    ensures var x := DeleteProduct(env, st, id, reply);
      && Text.StartsWith(x.sent.url, AuthApi.GetApiUrl(env)) && x.sent.headers == FetchHeaders(env, st, map[])
      && Invoke(Unresolved, x) == ([], Err(TypeError)) && Invoke(Resolved, x).0 == [x.sent]
  {
    var api := AuthApi.GetApiUrl(env);
    var p, n := NumberToString(page), NumberToString(perPage);
    assert Text.StartsWith(api, api);
    Extends(api, api, "/product?page=");
    Extends(api + "/product?page=", api, p);
    Extends(api + "/product?page=" + p, api, "&perPage=");
    Extends(api + "/product?page=" + p + "&perPage=", api, n);
    Extends(api + "/product?page=" + p + "&perPage=" + n, api, "&sortOrder=");
    Extends(api + "/product?page=" + p + "&perPage=" + n + "&sortOrder=", api, sortOrder);
    BuiltFromImports(env, st, GetProducts(env, st, page, perPage, sortOrder, reply), "GET", ProductsUrl(env, page, perPage, sortOrder), None);
    Extends(api, api, "/product-category?page=");
    Extends(api + "/product-category?page=", api, p);
    Extends(api + "/product-category?page=" + p, api, "&perPage=");
    Extends(api + "/product-category?page=" + p + "&perPage=", api, n);
    BuiltFromImports(env, st, GetProductCategories(env, st, page, perPage, reply), "GET",
                     api + "/product-category?page=" + p + "&perPage=" + n, None);
    Extends(api, api, "/product");
    BuiltFromImports(env, st, CreateProduct(env, st, payload, reply), "POST", api + "/product", Some(payload));
    Extends(api, api, "/product?id=");
    Extends(api + "/product?id=", api, NumberToString(id));
    BuiltFromImports(env, st, UpdateProduct(env, st, id, payload, reply), "PUT", api + "/product?id=" + NumberToString(id), Some(payload));
    BuiltFromImports(env, st, DeleteProduct(env, st, id, reply), "DELETE", api + "/product?id=" + NumberToString(id), None);
  }
}

=== FILE: products_page.dfy ===
/**
 * The products list controller of app/dashboard/products/page.tsx: the
 * page's state as one record and each handler as a transition. A transition
 * returns the new state together with the pages it asks `loadData` to fetch
 * (directly, or through the effect that reloads whenever the page or the page
 * size changes); a fetch's completion is its own transition, `LoadData`.
 */
module ProductsPage {
  import opened Wrappers
  import opened Text
  import opened Numbers
  import opened Json
  import opened Session
  import opened Http
  import opened ProductsApi
  import ProductsPager

  /** A product row as the page uses it (`ProductResponse`; the server's shape is taken on trust). */
  datatype Product = Product(
    id: Number, code: string, name: string, description: Option<string>, categoryId: Option<Number>,
    precio: Number, costo: Number, imagenUrl: Option<string>, isAvailable: bool)

  /** The category select holds either nothing (`""`) or a category number. */
  datatype Category = NoCategory | CategoryNumber(n: Number)

  /** The form's draft: prices are the text typed into the inputs. */
  datatype Draft = Draft(
    code: string, name: string, description: string, categoryId: Category,
    precio: string, costo: string, imagenUrl: string, isAvailable: bool)

  const InitialDraft := Draft("", "", "", NoCategory, "0", "0", "", true)

  /** The page's state. `rows` is the current page of products as the server sent them. */
  datatype Page = Page(
    rows: seq<Value>, loading: bool, pagination: Option<Pagination>, page: Number, pageSize: Number,
    formOpen: bool, editing: Option<Product>, form: Draft, formSubmitting: bool, formErrors: map<string, string>,
    confirmOpen: bool, deleting: Option<Product>)

  /** The state on first render; the effect then loads page 1. */
  const Initial := Page([], true, None, Int(1), Int(10), false, None, InitialDraft, false, map[], false, None)

  /** The page sizes the footer offers. */
  const PageSizes: seq<int> := [5, 10, 25, 50]

  /** The sort order every list request asks for. */
  const SortOrder := "desc"

  /** A transition's result: the new state and the pages `loadData` is asked to fetch, in order. */
  datatype Step = Step(state: Page, loads: seq<Number>)

  /** A transition that asks for loads: each `loadData` starts by raising the loading flag. */
  function Issue(t: Page, loads: seq<Number>): Step {
    Step(if loads != [] then t.(loading := true) else t, loads)
  }

  /** The effect on `[page, loadData]`: a new page number or a new page size reloads the page in view. */
  function EffectLoads(before: Page, after: Page): (loads: seq<Number>)
    ensures loads == [] || loads == [after.page]
    ensures loads != [] <==> before.page != after.page || before.pageSize != after.pageSize
  {
    if before.page != after.page || before.pageSize != after.pageSize then [after.page] else []
  }

  // ---------------------------------------------------------------- loading

  /**
   * The completion of `loadData(p)`: the page's rows and pagination when the
   * request succeeded, an empty table with no pagination when it failed;
   * either way the table is no longer loading.
   */
  ghost function LoadData(env: Env, st: Store, s: Page, p: Number, reply: FetchReply): (r: Page)
    ensures !r.loading
    ensures FetchJson(reply).Err? ==> r.rows == [] && r.pagination.None?
    ensures FetchJson(reply).Ok? ==>
      var parsed := ParsePaginated(FetchJson(reply).value, s.pageSize);
      r.rows == parsed.data && r.pagination == parsed.pagination
    ensures r.(rows := s.rows, pagination := s.pagination, loading := s.loading) == s
  {
    var x := GetProducts(env, st, p, s.pageSize, SortOrder, reply);
    match x.result
    case Ok(res) => s.(rows := res.data, pagination := res.pagination, loading := false)
    case Err(_) => s.(rows := [], pagination := None, loading := false)
  }

  /** A failed load leaves the page exactly as a successful load of an empty list does. */
  lemma FailedLoadLooksEmpty(env: Env, st: Store, s: Page, p: Number, reply: FetchReply, status: int, headers: map<string, string>)
    requires FetchJson(reply).Err? && IsOk(status)
    ensures LoadData(env, st, s, p, reply) == LoadData(env, st, s, p, Response(status, headers, Some(JArr([]))))
  {
  }

  /** The request `loadData(p)` sends: the list at page `p` with the current page size, newest first. */
  ghost function LoadRequest(env: Env, st: Store, s: Page, p: Number): (q: Request)
    ensures q == GetProducts(env, st, p, s.pageSize, SortOrder, NetworkFailure).sent
    ensures q.verb == "GET" && q.body.None?
  {
    FetchRequest(env, st, "GET", ProductsUrl(env, p, s.pageSize, SortOrder), None)
  }

  /** Choosing another page size starts over at page 1 and reloads it. */
  function ChangePageSize(s: Page, size: Number): (r: Step)
    ensures r.state == s.(pageSize := size, page := Int(1), loading := s.loading || r.loads != [])
    ensures r.loads == (if s.page != Int(1) || s.pageSize != size then [Int(1)] else [])
  {
    var t := s.(pageSize := size, page := Int(1));
    Issue(t, EffectLoads(s, t))
  }

  /** A page button: that page becomes current and is loaded. */
  function GoToPage(s: Page, p: real): (r: Step)
    ensures r.state == s.(page := Finite(p), loading := s.loading || r.loads != [])
    ensures r.loads == (if s.page != Finite(p) then [Finite(p)] else [])
  {
    var t := s.(page := Finite(p));
    Issue(t, EffectLoads(s, t))
  }

  /** The "previous" button, disabled unless the server said there is a previous page. */
  function Previous(s: Page): (r: Step)
    ensures s.pagination.Some? && s.pagination.value.hasPreviousPage ==>
      && r.state == s.(page := Sub(s.page, Int(1)), loading := s.loading || r.loads != [])
      && r.loads == (if s.page.Finite? then [Sub(s.page, Int(1))] else [])
    ensures !(s.pagination.Some? && s.pagination.value.hasPreviousPage) ==> r == Step(s, [])
  {
    if s.pagination.Some? && s.pagination.value.hasPreviousPage then
      var t := s.(page := Sub(s.page, Int(1)));
      Issue(t, EffectLoads(s, t))
    else Step(s, [])
  }

  /** The "next" button, disabled unless the server said there is a next page. */
  function Next(s: Page): (r: Step)
    ensures s.pagination.Some? && s.pagination.value.hasNextPage ==>
      && r.state == s.(page := Add(s.page, Int(1)), loading := s.loading || r.loads != [])
      && r.loads == (if s.page.Finite? then [Add(s.page, Int(1))] else [])
    ensures !(s.pagination.Some? && s.pagination.value.hasNextPage) ==> r == Step(s, [])
  {
    if s.pagination.Some? && s.pagination.value.hasNextPage then
      var t := s.(page := Add(s.page, Int(1)));
      Issue(t, EffectLoads(s, t))
    else Step(s, [])
  }

  /** Moving forward and back from a whole-numbered page lands on the same page, loading each once. */
  lemma NextThenPrevious(s: Page)
    requires s.page.Finite?
    requires s.pagination.Some? && s.pagination.value.hasNextPage && s.pagination.value.hasPreviousPage
    ensures var n := Next(s);
      && n.loads == [Add(s.page, Int(1))]
      && Previous(n.state).state == s.(loading := true)
      && Previous(n.state).loads == [s.page]
  {
  }

  // ---------------------------------------------------------------- the form

  /** `openCreate`: an empty draft, no errors, no product being edited. */
  function OpenCreate(s: Page): (r: Page)
    ensures r.formOpen && r.editing.None? && r.form == InitialDraft && r.formErrors == map[]
    ensures r.(formOpen := s.formOpen, editing := s.editing, form := s.form, formErrors := s.formErrors) == s
  {
    s.(editing := None, form := InitialDraft, formErrors := map[], formOpen := true)
  }

  /** The draft `openEdit` fills from a product: absent texts become empty, prices their `String` text. */
  ghost function DraftOf(item: Product): (d: Draft)
    ensures d.code == item.code && d.name == item.name && d.isAvailable == item.isAvailable
    ensures d.description == item.description.GetOr("") && d.imagenUrl == item.imagenUrl.GetOr("")
    ensures d.categoryId == (if item.categoryId.Some? then CategoryNumber(item.categoryId.value) else NoCategory)
    ensures PrintsAsDigits(item.precio) ==> d.precio == IntToString(item.precio.value.Floor)
    ensures PrintsAsDigits(item.costo) ==> d.costo == IntToString(item.costo.value.Floor)
  {
    Draft(item.code, item.name, item.description.GetOr(""),
          match item.categoryId case Some(c) => CategoryNumber(c) case None => NoCategory,
          NumberToString(item.precio), NumberToString(item.costo), item.imagenUrl.GetOr(""), item.isAvailable)
  }

  /** `openEdit(item)`: the draft holds the product, no errors. */
  ghost function OpenEdit(s: Page, item: Product): (r: Page)
    ensures r.formOpen && r.editing == Some(item) && r.form == DraftOf(item) && r.formErrors == map[]
    ensures r.(formOpen := s.formOpen, editing := s.editing, form := s.form, formErrors := s.formErrors) == s
  {
    s.(editing := Some(item), form := DraftOf(item), formErrors := map[], formOpen := true)
  }

  /** `closeForm`: hidden and no longer editing; the draft is kept. */
  function CloseForm(s: Page): (r: Page)
    ensures !r.formOpen && r.editing.None?
    ensures r.(formOpen := s.formOpen, editing := s.editing) == s
  {
    s.(formOpen := false, editing := None)
  }

  const CodeRequired := "El código es requerido"
  const NameRequired := "El nombre es requerido"
  const BadPrice := "Precio inválido"
  const BadCost := "Costo inválido"

  /** A price the form accepts: a number, and not negative. */
  predicate ValidAmount(n: Number) {
    n.Finite? && n.value >= 0.0
  }

  /** The fields `validate` checks, and the message each gets when rejected. */
  const CheckedFields: set<string> := {"code", "name", "precio", "costo"}

  function ErrorText(field: string): string {
    if field == "code" then CodeRequired
    else if field == "name" then NameRequired
    else if field == "precio" then BadPrice
    else BadCost
  }

  /** The error map for the outcome of each check: which texts are blank and what the prices read as. */
  function ErrorsOf(codeBlank: bool, nameBlank: bool, precio: Number, costo: Number): (err: map<string, string>)
    ensures "code" in err <==> codeBlank
    ensures "name" in err <==> nameBlank
    ensures "precio" in err <==> !ValidAmount(precio)
    ensures "costo" in err <==> !ValidAmount(costo)
    ensures err.Keys <= CheckedFields
    ensures forall k :: k in err ==> err[k] == ErrorText(k)
  {
    var e0: map<string, string> := map[];
    var e1 := if codeBlank then e0["code" := CodeRequired] else e0;
    var e2 := if nameBlank then e1["name" := NameRequired] else e1;
    var e3 := if !ValidAmount(precio) then e2["precio" := BadPrice] else e2;
    if !ValidAmount(costo) then e3["costo" := BadCost] else e3
  }

  /**
   * The error map `validate` builds: one entry per rejected field, keyed by
   * the field's name.
   */
  function DraftErrors(d: Draft): (err: map<string, string>)
    ensures "code" in err <==> Trim(d.code) == []
    ensures "name" in err <==> Trim(d.name) == []
    ensures "precio" in err <==> !ValidAmount(ParseNumber(d.precio))
    ensures "costo" in err <==> !ValidAmount(ParseNumber(d.costo))
    ensures err.Keys <= CheckedFields
    ensures forall k :: k in err ==> err[k] == ErrorText(k)
  {
    ErrorsOf(Trim(d.code) == [], Trim(d.name) == [], ParseNumber(d.precio), ParseNumber(d.costo))
  }

  /** The draft passes `validate`: no field is rejected. */
  predicate Valid(d: Draft) {
    && Trim(d.code) != [] && Trim(d.name) != []
    && ValidAmount(ParseNumber(d.precio)) && ValidAmount(ParseNumber(d.costo))
  }

  /** `validate` returns true exactly when its error map is empty. */
  lemma ValidIffNoErrors(d: Draft)
    ensures Valid(d) <==> DraftErrors(d) == map[]
  {
    if !Valid(d) {
      var k := if Trim(d.code) == [] then "code" else if Trim(d.name) == [] then "name"
               else if !ValidAmount(ParseNumber(d.precio)) then "precio" else "costo";
      assert k in DraftErrors(d);
    }
  }

  /** What passing means in terms of the typed text. */
  lemma ValidMeans(d: Draft)
    ensures Valid(d) <==>
      && !AllSpace(d.code) && !AllSpace(d.name)
      && ValidAmount(ParseNumber(d.precio)) && ValidAmount(ParseNumber(d.costo))
  {
  }

  /** A negative price and a non-number are rejected; zero is fine. */
  lemma PriceExamples(d: Draft)
    ensures "precio" in DraftErrors(d.(precio := "-1"))
    ensures "precio" in DraftErrors(d.(precio := "abc"))
    ensures "precio" !in DraftErrors(d.(precio := "0"))
  {
    ParseMinusOne();
    ParseLetters();
    ParseZero();
  }

  /** `CreateProductRequest`: what the form sends. */
  datatype Payload = Payload(
    code: string, name: string, description: string, categoryId: Option<Number>,
    precio: Number, costo: Number, imagenUrl: string, isAvailable: bool)

  /** The payload built from the draft: texts trimmed, prices parsed, no category as `null`. */
  function PayloadOf(d: Draft): (p: Payload)
    ensures p.code == Trim(d.code) && p.name == Trim(d.name)
    ensures p.description == Trim(d.description) && p.imagenUrl == Trim(d.imagenUrl)
    ensures p.categoryId.None? <==> d.categoryId.NoCategory?
    ensures d.categoryId.CategoryNumber? ==> p.categoryId == Some(d.categoryId.n)
    ensures p.precio == ParseNumber(d.precio) && p.costo == ParseNumber(d.costo)
    ensures p.isAvailable == d.isAvailable
  {
    Payload(Trim(d.code), Trim(d.name), Trim(d.description),
            match d.categoryId case NoCategory => None case CategoryNumber(n) => Some(n),
            ParseNumber(d.precio), ParseNumber(d.costo), Trim(d.imagenUrl), d.isAvailable)
  }

  /** A payload built from a draft that passed has a code, a name and two non-negative prices. */
  lemma ValidPayload(d: Draft)
    requires Valid(d)
    ensures var p := PayloadOf(d);
      p.code != [] && p.name != [] && ValidAmount(p.precio) && ValidAmount(p.costo)
  {
    ValidMeans(d);
  }

  /** Editing a product and saving untouched sends its own prices back. */
  lemma EditRoundTrip(item: Product, precioText: string, costoText: string)
    requires ParseNumber(precioText) == item.precio && ParseNumber(costoText) == item.costo
    ensures var p := PayloadOf(DraftOf(item));
      && p.precio == item.precio && p.costo == item.costo
      && p.categoryId == item.categoryId
      && p.isAvailable == item.isAvailable
  {
  }

  /** `JSON.stringify` of a number: NaN becomes `null`. */
  function NumberJson(n: Number): Value {
    match n
    case NaN => JNull
    case Finite(v) => JNum(v)
  }

  /** The request body. */
  function PayloadJson(p: Payload): Value {
    JObj([("code", JStr(p.code)), ("name", JStr(p.name)), ("description", JStr(p.description)),
          ("categoryId", match p.categoryId case None => JNull case Some(c) => NumberJson(c)),
          ("precio", NumberJson(p.precio)), ("costo", NumberJson(p.costo)),
          ("imagenUrl", JStr(p.imagenUrl)), ("isAvailable", JBool(p.isAvailable))])
  }

  /** The save `handleSubmit` makes: an update of the product being edited, else a create. */
  ghost function Save(env: Env, st: Store, editing: Option<Product>, body: Value, reply: FetchReply): (x: Exchange<()>)
    ensures editing.Some? ==>
      var u := UpdateProduct(env, st, editing.value.id, body, reply);
      x.sent == u.sent && (x.result.Ok? <==> u.result.Ok?) && (x.result.Err? ==> x.result.error == u.result.error)
    ensures editing.None? ==>
      var c := CreateProduct(env, st, body, reply);
      x.sent == c.sent && (x.result.Ok? <==> c.result.Ok?) && (x.result.Err? ==> x.result.error == c.result.error)
  {
    match editing
    case Some(item) => UpdateProduct(env, st, item.id, body, reply)
    case None =>
      var c := CreateProduct(env, st, body, reply);
      Exchange(c.sent, if c.result.Ok? then Ok(()) else Err(c.result.error))
  }

  /** A submission: the new state, the pages to load, and the request sent (if any). */
  datatype Submission = Submission(step: Step, sent: Option<Request>)

  /**
   * How a settled save leaves the page. On failure the form stays open with
   * the error in `submit` and nothing reloads. On success the form closes and
   * the current page (after an edit) or page 1 (after a create, which also
   * moves to page 1) is reloaded, so the table shows its spinner. The
   * submitting flag is down either way.
   */
  function AfterSave(s: Page, outcome: Result<(), Thrown>): (r: Step)
    ensures !r.state.formSubmitting
    ensures outcome.Err? ==>
      && r.loads == []
      && r.state == s.(formErrors := map["submit" := Message(outcome.error)], formSubmitting := false)
    ensures outcome.Ok? ==>
      && !r.state.formOpen && r.state.editing.None? && r.state.formErrors == map[]
      && r.state.rows == s.rows && r.state.form == s.form && r.state.pageSize == s.pageSize
      && r.state.loading
    ensures outcome.Ok? ==>
      r.state.(formOpen := s.formOpen, editing := s.editing, formErrors := s.formErrors,
               formSubmitting := s.formSubmitting, page := s.page, loading := s.loading) == s
    ensures outcome.Ok? && s.editing.Some? ==> r.loads == [s.page] && r.state.page == s.page
    ensures outcome.Ok? && s.editing.None? ==>
      r.state.page == Int(1) && r.loads == [Int(1)] + (if s.page != Int(1) then [Int(1)] else [])
  {
    match outcome
    case Err(e) => Step(s.(formErrors := map["submit" := Message(e)], formSubmitting := false), [])
    case Ok(_) =>
      var closed := s.(formErrors := map[], formOpen := false, editing := None, formSubmitting := false);
      if s.editing.Some? then Issue(closed, [s.page])
      else
        var moved := closed.(page := Int(1));
        Issue(moved, [Int(1)] + EffectLoads(s, moved))
  }

  /**
   * `handleSubmit`. An invalid draft only shows its errors and sends nothing.
   * A valid one is saved from its payload, and the page settles as
   * `AfterSave` describes.
   */
  ghost function HandleSubmit(env: Env, st: Store, s: Page, reply: FetchReply): (r: Submission)
    ensures !Valid(s.form) ==> r == Submission(Step(s.(formErrors := DraftErrors(s.form)), []), None)
    ensures Valid(s.form) ==>
      var x := Save(env, st, s.editing, PayloadJson(PayloadOf(s.form)), reply);
      r.sent == Some(x.sent) && r.step == AfterSave(s, x.result)
  {
    if !Valid(s.form) then Submission(Step(s.(formErrors := DraftErrors(s.form)), []), None)
    else
      var x := Save(env, st, s.editing, PayloadJson(PayloadOf(s.form)), reply);
      Submission(AfterSave(s, x.result), Some(x.sent))
  }

  /** A failed save keeps the draft and the form open; a create that succeeds always lands on page 1. */
  lemma SubmitOutcomes(env: Env, st: Store, s: Page, reply: FetchReply)
    requires Valid(s.form)
    ensures var r := HandleSubmit(env, st, s, reply);
      var x := Save(env, st, s.editing, PayloadJson(PayloadOf(s.form)), reply);
      && (x.result.Err? ==> r.step.state.formOpen == s.formOpen && r.step.state.form == s.form && r.step.loads == [])
      && (x.result.Ok? && s.editing.None? ==> r.step.state.page == Int(1) && r.step.loads[0] == Int(1))
  {
  }

  // ---------------------------------------------------------------- deleting

  /** `openDelete(item)`: only asks for confirmation. */
  function OpenDelete(s: Page, item: Product): (r: Page)
    ensures r.confirmOpen && r.deleting == Some(item)
    ensures r.(confirmOpen := s.confirmOpen, deleting := s.deleting) == s
  {
    s.(deleting := Some(item), confirmOpen := true)
  }

  /** Dismissing the confirmation. */
  function CancelDelete(s: Page): (r: Page)
    ensures !r.confirmOpen && r.(confirmOpen := s.confirmOpen) == s
  {
    s.(confirmOpen := false)
  }

  const DeleteFailed := "Error al eliminar"

  /**
   * How a settled delete leaves the page. On success the confirmation closes
   * and the page the server last reported (page 1 without pagination) is
   * reloaded; on failure the confirmation stays open and "Error al eliminar"
   * is stored under `formErrors.submit`.
   */
  function AfterDelete(s: Page, deleted: bool): (r: Step)
    ensures deleted ==>
      && !r.state.confirmOpen && r.state.deleting.None?
      && r.loads == [if s.pagination.Some? then s.pagination.value.currentPage else Int(1)]
      && r.state.loading
      && r.state.(confirmOpen := s.confirmOpen, deleting := s.deleting, loading := s.loading) == s
    ensures !deleted ==> r == Step(s.(formErrors := map["submit" := DeleteFailed]), [])
  {
    if deleted then
      var target := if s.pagination.Some? then s.pagination.value.currentPage else Int(1);
      Issue(s.(confirmOpen := false, deleting := None), [target])
    else Step(s.(formErrors := map["submit" := DeleteFailed]), [])
  }

  /** `handleDelete`: nothing without a target; otherwise the target is deleted and the page settles as `AfterDelete` describes. */
  ghost function HandleDelete(env: Env, st: Store, s: Page, reply: FetchReply): (r: Submission)
    ensures s.deleting.None? ==> r == Submission(Step(s, []), None)
    ensures s.deleting.Some? ==>
      var x := DeleteProduct(env, st, s.deleting.value.id, reply);
      r.sent == Some(x.sent) && r.step == AfterDelete(s, x.result.Ok?)
  {
    match s.deleting
    case None => Submission(Step(s, []), None)
    case Some(item) =>
      var x := DeleteProduct(env, st, item.id, reply);
      Submission(AfterDelete(s, x.result.Ok?), Some(x.sent))
  }

  /** Opening the confirmation sends nothing; confirming deletes exactly the chosen product. */
  lemma DeleteTwoPhase(env: Env, st: Store, s: Page, item: Product, reply: FetchReply)
    ensures var asking := OpenDelete(s, item);
      && asking.rows == s.rows && asking.page == s.page
      && HandleDelete(env, st, asking, reply).sent.Some?
      && HandleDelete(env, st, asking, reply).sent.value.verb == "DELETE"
      && HandleDelete(env, st, asking, reply).sent.value == DeleteProduct(env, st, item.id, reply).sent
  {
  }

  /**
   * The delete error lands in the product form's error map, which only the
   * product form displays; the form is not reopened by the failure, and
   * opening it clears the map first.
   */
  lemma DeleteErrorClearedOnOpen(env: Env, st: Store, s: Page, reply: FetchReply, item: Product)
    requires s.deleting.Some? && DeleteProduct(env, st, s.deleting.value.id, reply).result.Err?
    ensures var t := HandleDelete(env, st, s, reply).step.state;
      && t.formErrors == map["submit" := DeleteFailed] && t.formOpen == s.formOpen
      && OpenCreate(t).formErrors == map[] && OpenEdit(t, item).formErrors == map[]
  {
  }
}

=== FILE: products_pager.dfy ===
/**
 * The footer of the products table in app/dashboard/products/page.tsx: the
 * window of page buttons and the "showing X–Y of N" range, computed with
 * JavaScript number semantics from whatever pagination the server sent.
 */
module ProductsPager {
  import opened Wrappers
  import opened Numbers
  import opened ProductsApi

  /** At most this many page buttons show. */
  const MaxVisible := 5
  /** `Math.floor(maxVisible / 2)`: how many buttons precede the current one when it can be centred. */
  const HalfWindow := 2

  /** `Array.from({length: n}, (_, i) => start + i)`. */
  function Run(start: real, n: nat): (r: seq<real>)
    ensures |r| == n
    ensures forall i :: 0 <= i < n ==> r[i] == start + i as real
  {
    seq(n, i requires 0 <= i < n => start + i as real)
  }

  /**
   * The page numbers `getPageNumbers` lists for `totalPages` and
   * `currentPage`: pages 1 to `total` when there are at most five, otherwise
   * five pages starting two before the current one, slid left so that they
   * end at the last page.
   */
  function Window(total: Number, current: Number): (ns: seq<real>)
    ensures forall i :: 0 <= i < |ns| - 1 ==> ns[i + 1] == ns[i] + 1.0
    ensures AtMost(total, Int(MaxVisible)) ==>
      |ns| == ToLength(total) && forall i :: 0 <= i < |ns| ==> ns[i] == (i + 1) as real
    ensures !AtMost(total, Int(MaxVisible)) && current.Finite? ==> |ns| == MaxVisible
    ensures !AtMost(total, Int(MaxVisible)) && current.NaN? ==> ns == []
    ensures !AtMost(total, Int(MaxVisible)) ==> forall i :: 0 <= i < |ns| ==> 1.0 <= ns[i]
    ensures total.Finite? && MaxVisible as real < total.value ==> forall i :: 0 <= i < |ns| ==> ns[i] <= total.value
  {
    if AtMost(total, Int(MaxVisible)) then Run(1.0, ToLength(total))
    else
      var start := Max(Int(1), Sub(current, Int(HalfWindow)));
      var end := Add(start, Int(MaxVisible - 1));
      var slid := Less(total, end);
      var first := if slid then Sub(total, Int(MaxVisible - 1)) else start;
      var last := if slid then total else end;
      var len := ToLength(Add(Sub(last, first), Int(1)));
      match first
      case NaN => []
      case Finite(v) => Run(v, len)
  }

  /** `getPageNumbers()`: nothing without pagination. */
  function PageNumbers(p: Option<Pagination>): (ns: seq<real>)
    ensures p.None? ==> ns == []
    ensures p.Some? ==> ns == Window(p.value.totalPages, p.value.currentPage)
  {
    match p
    case None => []
    case Some(q) => Window(q.totalPages, q.currentPage)
  }

  /** With a whole number of pages the window holds `min(5, totalPages)` buttons. */
  lemma WindowLength(total: nat, current: int)
    ensures |Window(Int(total), Int(current))| == if total < MaxVisible then total else MaxVisible
  {
    assert (total as real).Floor == total;
  }

  /** Any valid current page has its own button. */
  lemma WindowContainsCurrent(total: int, current: int)
    requires 1 <= current <= total
    ensures current as real in Window(Int(total), Int(current))
  {
    var ns := Window(Int(total), Int(current));
    if total <= MaxVisible {
      assert (total as real).Floor == total;
      assert ns[current - 1] == current as real;
    } else {
      var start := if current - HalfWindow < 1 then 1 else current - HalfWindow;
      var first := if start + MaxVisible - 1 > total then total - MaxVisible + 1 else start;
      assert ns[0] == first as real;
      assert ns[current - first] == current as real;
    }
  }

  /** Five buttons from a whole page number on. */
  lemma FiveFrom(start: int)
    ensures Run(start as real, 5)
         == [start as real, (start + 1) as real, (start + 2) as real, (start + 3) as real, (start + 4) as real]
  {
    var r := Run(start as real, 5);
    assert r[0] == start as real && r[1] == (start + 1) as real && r[2] == (start + 2) as real;
    assert r[3] == (start + 3) as real && r[4] == (start + 4) as real;
  }

  /** With twelve pages, page 1 shows pages 1–5: the window cannot start before page 1. */
  lemma TwelvePagesAtStart()
    ensures Window(Int(12), Int(1)) == [1.0, 2.0, 3.0, 4.0, 5.0]
  {
    assert Sub(Int(1), Int(HalfWindow)) == Int(-1);
    assert Max(Int(1), Int(-1)) == Int(1);
    assert Add(Int(1), Int(MaxVisible - 1)) == Int(5);
    assert !Less(Int(12), Int(5));
    assert Add(Sub(Int(5), Int(1)), Int(1)) == Int(5);
    FiveFrom(1);
  }

  /** With twelve pages, page 12 shows pages 8–12: the window slides left to end at the last page. */
  lemma TwelvePagesAtEnd()
    ensures Window(Int(12), Int(12)) == [8.0, 9.0, 10.0, 11.0, 12.0]
  {
    assert Sub(Int(12), Int(HalfWindow)) == Int(10);
    assert Max(Int(1), Int(10)) == Int(10);
    assert Add(Int(10), Int(MaxVisible - 1)) == Int(14);
    assert Less(Int(12), Int(14));
    assert Sub(Int(12), Int(MaxVisible - 1)) == Int(8);
    assert Add(Sub(Int(12), Int(8)), Int(1)) == Int(5);
    FiveFrom(8);
  }

  /** With twelve pages, page 6 shows pages 4–8, centred on the current page. */
  lemma TwelvePagesInMiddle()
    ensures Window(Int(12), Int(6)) == [4.0, 5.0, 6.0, 7.0, 8.0]
  {
    assert Sub(Int(6), Int(HalfWindow)) == Int(4);
    assert Max(Int(1), Int(4)) == Int(4);
    assert Add(Int(4), Int(MaxVisible - 1)) == Int(8);
    assert !Less(Int(12), Int(8));
    assert Add(Sub(Int(8), Int(4)), Int(1)) == Int(5);
    FiveFrom(4);
  }

  /** `rangeStart`: the position of the page's first record, 0 without pagination. */
  function RangeStart(p: Option<Pagination>): Number {
    match p
    case None => Int(0)
    case Some(q) => Add(Mul(Sub(q.currentPage, Int(1)), q.pageSize), Int(1))
  }

  /** `rangeEnd`: the position of the page's last record, capped by the total. */
  function RangeEnd(p: Option<Pagination>): Number {
    match p
    case None => Int(0)
    case Some(q) => Min(Mul(q.currentPage, q.pageSize), q.totalCount)
  }

  function PageOf(current: int, size: int, count: int): Option<Pagination> {
    Some(Pagination(Int(current), Int(1), Int(count), Int(size), false, false))
  }

  /**
   * On a page that holds records the range counts exactly the records on
   * it: a full page, or the remainder on the last one.
   */
  lemma RangeCountsPageRecords(current: int, size: int, count: int)
    requires current >= 1 && size >= 1 && (current - 1) * size < count
    ensures var p := PageOf(current, size, count);
      && RangeStart(p) == Int((current - 1) * size + 1)
      && RangeEnd(p).Finite? && RangeStart(p).value <= RangeEnd(p).value
      && RangeEnd(p).value - RangeStart(p).value + 1.0
         == (if count - (current - 1) * size < size then count - (current - 1) * size else size) as real
  {
    var p := PageOf(current, size, count);
    assert Sub(Int(current), Int(1)) == Int(current - 1);
    assert Mul(Int(current - 1), Int(size)) == Int((current - 1) * size);
    assert Mul(Int(current), Int(size)) == Int(current * size);
    assert current * size == (current - 1) * size + size;
  }

  /** Consecutive full pages cover consecutive records: one page ends right before the next begins. */
  lemma RangesTile(current: int, size: int, count: int)
    requires current >= 1 && size >= 1 && current * size <= count
    ensures RangeStart(PageOf(current + 1, size, count)) == Add(RangeEnd(PageOf(current, size, count)), Int(1))
  {
    assert Mul(Int(current), Int(size)) == Int(current * size);
    assert Sub(Int(current + 1), Int(1)) == Int(current);
  }

  /** Without pagination the footer reads 0–0. */
  lemma RangeWithoutPagination()
    ensures RangeStart(None) == Int(0) && RangeEnd(None) == Int(0)
  {
  }
}

=== FILE: reauth.dfy ===
/**
 * The request gateway of lib/baseQuery.ts: every RTK Query request gets the
 * stored bearer token, token headers on the first response are persisted,
 * and a 401 leads to at most one refresh and at most one replay, or else to
 * the session being cleared and a redirect to the login page.
 */
module Reauth {
  import opened Wrappers
  import opened Json
  import opened Session
  import opened Http

  const BaseUrl := "http://inventorydevelop.us-east-2.elasticbeanstalk.com/api"
  const RefreshPath := "/account/refresh"

  /** The argument of a query: a path relative to the base URL, a method and a body. */
  datatype Args = Args(url: string, verb: string, body: Option<Value>)

  /** `error.status` of a failed query: an HTTP status or one of RTK's own failure kinds. */
  datatype ErrorStatus = HttpStatus(code: int) | FetchError | ParsingError

  /** What a query resolves to: `{data}` or `{error}`. */
  datatype QueryResult = QueryData(data: Value) | QueryError(status: ErrorStatus, payload: Option<Value>)

  /**
   * One result of the base query, as the scripted network delivers it:
   * the result, and the response headers when a response arrived at all
   * (`result.meta.response`).
   */
  datatype Reply = Reply(result: QueryResult, response: Option<map<string, string>>)

  /** A request that got no response. */
  const NoReply := Reply(QueryError(FetchError, None), None)

  /** The reply to the `i`-th base request of one call; a script that ran out answers with no response. */
  function ReplyAt(replies: seq<Reply>, i: nat): Reply {
    if i < |replies| then replies[i] else NoReply
  }

  /** The request `baseQuery(args)` sends with the storage as it is at that moment. */
  function BaseRequest(env: Env, st: Store, args: Args): Request {
    Request(args.verb, BaseUrl + args.url, BearerHeaders(env, st), args.body)
  }

  /** The refresh call made with refresh token `t`. */
  function RefreshArgs(t: string): Args {
    Args(RefreshPath, "POST", Some(JObj([("refreshToken", JStr(t))])))
  }

  /** The capture step: token headers are stored whenever a response arrived, whatever its status. */
  function Capture(env: Env, st: Store, response: Option<map<string, string>>): Store {
    if response.None? then st else SaveTokenHeaders(env, st, response.value)
  }

  predicate Unauthorized(r: QueryResult) {
    r.QueryError? && r.status == HttpStatus(401)
  }

  /** The refresh token the 401 branch reads, when it is usable (non-empty). */
  function StoredRefreshToken(env: Env, st: Store): Option<string> {
    var t := GetItem(env, st, RefreshKey);
    if Filled(t) then t else None
  }

  /** A refresh reply counts as granted when it has a response with a non-empty `Authorization` header. */
  predicate Granted(r: Reply) {
    r.response.Some? && Filled(HeaderValue(r.response.value, "Authorization"))
  }

  /** Storing the tokens a granted refresh returned. */
  function SaveRefreshed(env: Env, st: Store, headers: map<string, string>): Store
    requires Filled(HeaderValue(headers, "Authorization"))
  {
    var st1 := SaveToken(env, st, headers["Authorization"]);
    var nr := HeaderValue(headers, "RefreshToken");
    if Filled(nr) then SaveRefreshToken(env, st1, nr.value) else st1
  }

  /**
   * The result of one gateway call: what the caller receives, the storage
   * afterwards, every base request sent in order, and whether the page was
   * sent to /login.
   */
  datatype Outcome = Outcome(result: Reply, store: Store, sent: seq<Request>, redirect: bool)

  /** `baseQueryWithReauth(args)` against a scripted network. */
  function WithReauth(env: Env, st: Store, args: Args, replies: seq<Reply>): (o: Outcome)
    // Shape of the traffic: the original request first, at most one refresh, at most one replay.
    ensures 1 <= |o.sent| <= 3
    ensures o.sent[0] == BaseRequest(env, st, args)
    // Token headers of the first response are stored before anything reads the refresh token.
    ensures var first := ReplyAt(replies, 0);
      var st1 := Capture(env, st, first.response);
      && (!Unauthorized(first.result) ==> o == Outcome(first, st1, [BaseRequest(env, st, args)], false))
      && (|o.sent| >= 2 <==> Unauthorized(first.result) && StoredRefreshToken(env, st1).Some?)
      && (|o.sent| >= 2 ==> o.sent[1] == BaseRequest(env, st1, RefreshArgs(StoredRefreshToken(env, st1).value)))
      && (|o.sent| == 3 <==> |o.sent| >= 2 && Granted(ReplyAt(replies, 1)))
      && (|o.sent| == 3 ==>
            && o.store == SaveRefreshed(env, st1, ReplyAt(replies, 1).response.value)
            && o.sent[2] == BaseRequest(env, o.store, args)
            && o.result == ReplyAt(replies, 2)
            && !o.redirect)
      && (Unauthorized(first.result) && |o.sent| < 3 ==>
            && o.store == ClearSession(env, st1)
            && o.result == first
            && o.redirect == env.browser)
  {
    var req := BaseRequest(env, st, args);
    var first := ReplyAt(replies, 0);
    var st1 := Capture(env, st, first.response);
    if !Unauthorized(first.result) then
      Outcome(first, st1, [req], false)
    else
      match StoredRefreshToken(env, st1)
      case None => Outcome(first, ClearSession(env, st1), [req], env.browser)
      case Some(t) =>
        var refreshReq := BaseRequest(env, st1, RefreshArgs(t));
        var second := ReplyAt(replies, 1);
        if Granted(second) then
          var st2 := SaveRefreshed(env, st1, second.response.value);
          Outcome(ReplyAt(replies, 2), st2, [req, refreshReq, BaseRequest(env, st2, args)], false)
        else
          Outcome(first, ClearSession(env, st1), [req, refreshReq], env.browser)
  }

  /** The refresh call is a POST to /account/refresh carrying the refresh token in its body. */
  lemma RefreshRequestShape(env: Env, st: Store, args: Args, replies: seq<Reply>)
    requires |WithReauth(env, st, args, replies).sent| >= 2
    ensures var r := WithReauth(env, st, args, replies).sent[1];
      && r.verb == "POST" && r.url == BaseUrl + RefreshPath
      && exists t :: t != "" && r.body == Some(JObj([("refreshToken", JStr(t))]))
  {
  }

  /** A 401 whose own response carried a `RefreshToken` header refreshes with that very token. */
  lemma RefreshUsesCapturedToken(env: Env, st: Store, args: Args, replies: seq<Reply>, rt: string)
    requires env.browser && rt != ""
    requires Unauthorized(ReplyAt(replies, 0).result)
    requires ReplyAt(replies, 0).response.Some?
    requires HeaderValue(ReplyAt(replies, 0).response.value, "RefreshToken") == Some(rt)
    ensures |WithReauth(env, st, args, replies).sent| >= 2
    ensures WithReauth(env, st, args, replies).sent[1].body == Some(JObj([("refreshToken", JStr(rt))]))
  {
  }

  /** The replay carries the refreshed access token, not the expired one. */
  lemma ReplayUsesNewToken(env: Env, st: Store, args: Args, replies: seq<Reply>)
    requires env.browser
    requires |WithReauth(env, st, args, replies).sent| == 3
    ensures var o := WithReauth(env, st, args, replies);
      var h := ReplyAt(replies, 1).response.value;
      && o.store[TokenKey] == StripBearer(h["Authorization"])
      && (StripBearer(h["Authorization"]) != "" ==>
            o.sent[2].headers["Authorization"] == "Bearer " + StripBearer(h["Authorization"]))
  {
  }

  /** Without a stored refresh token, and none on the 401's own response, a 401 clears the session at once: one request, no replay. */
  lemma NoRefreshTokenClears(env: Env, st: Store, args: Args, replies: seq<Reply>)
    requires env.browser
    requires Unauthorized(ReplyAt(replies, 0).result)
    requires ReplyAt(replies, 0).response.Some? ==> !Filled(HeaderValue(ReplyAt(replies, 0).response.value, "RefreshToken"))
    requires RefreshKey !in st
    ensures var o := WithReauth(env, st, args, replies);
      && |o.sent| == 1 && Cleared(o.store) && o.redirect && o.result == ReplyAt(replies, 0)
  {
  }

  /** A 401 on the replay is handed to the caller as it is: no second refresh, no clearing. */
  lemma ReplayedUnauthorizedIsFinal(env: Env, st: Store, args: Args, replies: seq<Reply>)
    requires |WithReauth(env, st, args, replies).sent| == 3
    requires Unauthorized(ReplyAt(replies, 2).result)
    ensures var o := WithReauth(env, st, args, replies);
      Unauthorized(o.result.result) && !o.redirect && |o.sent| == 3
  {
  }
}

=== FILE: register_page.dfy ===
/**
 * The two-step sign-up form of app/login/register/page.tsx: personal data
 * on step 0, the organization on step 1, and the submission that registers
 * and then logs in.
 */
module RegisterPage {
  import opened Wrappers
  import opened Text
  import opened Json
  import opened Session
  import opened Http
  import opened AuthApi
  import Email

  /** The page's state. `touchedPersonal`/`touchedOrg` hold the names of the touched fields. */
  datatype Form = Form(
    step: int, errorMessage: string, isLoading: bool,
    fullName: string, email: string, phone: string, gender: int, birthday: string,
    password: string, confirmationPassword: string,
    orgName: string, orgCode: string, codeDirty: bool,
    touchedPersonal: set<string>, touchedOrg: set<string>)

  const Blank := Form(0, "", false, "", "", "", 0, "", "", "", "", "", false, {}, {})

  const PersonalFields: set<string> := {"fullName", "email", "birthday", "password", "confirmationPassword"}
  const OrgFields: set<string> := {"name", "code"}
  const MismatchMessage := "Las contraseñas no coinciden."

  /** Both passwords typed and different. */
  predicate PasswordMismatch(f: Form) {
    f.password != "" && f.confirmationPassword != "" && f.password != f.confirmationPassword
  }

  /** The gate of step 0; lengths are JavaScript's, in UTF-16 code units. */
  ghost predicate PersonalValid(f: Form) {
    && Utf16Length(f.fullName) >= 3
    && Email.Matches(f.email)
    && f.birthday != ""
    && Utf16Length(f.password) >= 6
    && !PasswordMismatch(f)
  }

  /** The gate of step 1, in UTF-16 code units. */
  predicate OrgValid(f: Form) {
    Utf16Length(f.orgName) >= 2 && Utf16Length(f.orgCode) >= 2
  }

  /** Lengths count UTF-16 units: one character outside the Basic Multilingual Plane is a long enough organization name. */
  lemma OneEmojiOrgName(f: Form)
    requires f.orgName == "\U{1F600}" && f.orgCode == "AB"
    ensures OrgValid(f)
  {
    assert Utf16Length(f.orgName) == Utf16Length([]) + 2;
    assert Utf16Length(f.orgCode) == Utf16Length("A") + 1;
  }

  /** A valid personal step has matching passwords, or no confirmation typed at all. */
  lemma PersonalValidPasswordsAgree(f: Form)
    requires PersonalValid(f)
    ensures f.confirmationPassword == "" || f.confirmationPassword == f.password
  {
  }

  /** An empty confirmation is never reported as a mismatch, whatever the password. */
  lemma EmptyConfirmationNoMismatch(f: Form)
    requires f.confirmationPassword == ""
    ensures !PasswordMismatch(f)
  {
  }

  /** The characters a generated code may contain. */
  predicate CodeChar(c: char) {
    'A' <= c <= 'Z' || '0' <= c <= '9'
  }

  predicate AllCodeChars(s: string) {
    forall i :: 0 <= i < |s| ==> CodeChar(s[i])
  }

  /** `s.replace(/[^A-Z0-9]/g, "")`: the code characters of `s`, in order. */
  function KeepCodeChars(s: string): (r: string)
    ensures |r| <= |s|
    ensures AllCodeChars(r)
  {
    if s == [] then []
    else if CodeChar(s[0]) then [s[0]] + KeepCodeChars(s[1..])
    else KeepCodeChars(s[1..])
  }

  /** Filtering distributes over concatenation. */
  lemma {:induction false} KeepCodeCharsAppend(a: string, b: string)
    ensures KeepCodeChars(a + b) == KeepCodeChars(a) + KeepCodeChars(b)
  {
    if a == [] {
      assert a + b == b;
    } else {
      assert (a + b)[0] == a[0];
      assert (a + b)[1..] == a[1..] + b;
      KeepCodeCharsAppend(a[1..], b);
    }
  }

  /** A string made only of code characters survives the filter unchanged. */
  lemma {:induction false} KeepCodeCharsIdentity(s: string)
    requires AllCodeChars(s)
    ensures KeepCodeChars(s) == s
  {
    if s != [] {
      KeepCodeCharsIdentity(s[1..]);
    }
  }

  /** A code keeps at most ten characters. */
  const CodeLength := 10

  /** `orgName.toUpperCase().replace(/[^A-Z0-9]/g, "").substring(0, 10)`. */
  function GenerateCode(name: string): (code: string)
    ensures |code| <= CodeLength
    ensures AllCodeChars(code)
    ensures code <= KeepCodeChars(Upper(name))
    ensures |code| == if |KeepCodeChars(Upper(name))| < CodeLength then |KeepCodeChars(Upper(name))| else CodeLength
  {
    var kept := KeepCodeChars(Upper(name));
    if |kept| <= CodeLength then kept else kept[..CodeLength]
  }

  /** Upper-casing leaves code characters alone. */
  lemma UpperOfCodeChars(s: string)
    requires AllCodeChars(s)
    ensures Upper(s) == s
  {
  }

  /** Generating a code from a generated code gives it back. */
  lemma GenerateCodeIdempotent(name: string)
    ensures GenerateCode(GenerateCode(name)) == GenerateCode(name)
  {
    var code := GenerateCode(name);
    UpperOfCodeChars(code);
    KeepCodeCharsIdentity(code);
  }

  /** Lower case is raised, anything outside `A-Z0-9` dropped. */
  lemma GenerateCodeExample()
    ensures GenerateCode("mi-1") == "MI1"
  {
    var u := Upper("mi-1");
    assert u[0] == 'M' && u[1] == 'I' && u[2] == '-' && u[3] == '1';
    assert u == "MI-1";
    assert KeepCodeChars("1") == "1";
    assert KeepCodeChars("-1") == "1";
  }

  /**
   * Leaving the organization-name field: it becomes touched, and the code is
   * generated from the name unless the name is empty or the code was typed.
   */
  function OrgNameBlur(f: Form): (g: Form)
    ensures g.touchedOrg == f.touchedOrg + {"name"}
    ensures f.orgName != "" && !f.codeDirty ==> g.orgCode == GenerateCode(f.orgName)
    ensures f.orgName == "" || f.codeDirty ==> g.orgCode == f.orgCode
    ensures g.(orgCode := f.orgCode, touchedOrg := f.touchedOrg) == f
  {
    var touched := f.(touchedOrg := f.touchedOrg + {"name"});
    if f.orgName != "" && !f.codeDirty then touched.(orgCode := GenerateCode(f.orgName)) else touched
  }

  /** Typing in the code field: the code is taken as typed and marked dirty. */
  function CodeChange(f: Form, value: string): (g: Form)
    ensures g.orgCode == value && g.codeDirty && "code" in g.touchedOrg
    ensures g.(orgCode := f.orgCode, codeDirty := f.codeDirty, touchedOrg := f.touchedOrg) == f
  {
    f.(orgCode := value, codeDirty := true, touchedOrg := f.touchedOrg + {"code"})
  }

  /** Once the code was typed, leaving the name field never overwrites it. */
  lemma TypedCodeSticks(f: Form, value: string, name: string)
    ensures OrgNameBlur(CodeChange(f, value).(orgName := name)).orgCode == value
  {
  }

  /**
   * `handleNextStep`: all personal fields become touched; an invalid step
   * stays put, reporting only a password mismatch; a valid one clears the
   * message and advances.
   */
  ghost function NextStep(f: Form): (g: Form)
    ensures g.touchedPersonal == PersonalFields
    ensures g.step == 1 <==> PersonalValid(f) || f.step == 1
    ensures PersonalValid(f) ==> g.step == 1 && g.errorMessage == ""
    ensures !PersonalValid(f) && PasswordMismatch(f) ==> g.step == f.step && g.errorMessage == MismatchMessage
    ensures !PersonalValid(f) && !PasswordMismatch(f) ==> g.step == f.step && g.errorMessage == f.errorMessage
    ensures g.(step := f.step, errorMessage := f.errorMessage, touchedPersonal := f.touchedPersonal) == f
  {
    var touched := f.(touchedPersonal := PersonalFields);
    if !PersonalValid(f) then
      if PasswordMismatch(f) then touched.(errorMessage := MismatchMessage) else touched
    else touched.(errorMessage := "", step := 1)
  }

  /** The back button of step 1. */
  function Back(f: Form): (g: Form)
    ensures g.step == 0 && g.errorMessage == ""
    ensures g.(step := f.step, errorMessage := f.errorMessage) == f
  {
    f.(step := 0, errorMessage := "")
  }

  /** Going forward and back returns to step 0 with no message and nothing else lost. */
  lemma NextThenBack(f: Form)
    requires f.step == 0 && PersonalValid(f)
    ensures Back(NextStep(f)) == f.(errorMessage := "", touchedPersonal := PersonalFields)
  {
  }

  /**
   * The registration data the page sends: `birthday` as the ISO text the
   * date conversion produced, and no phone when the field is empty.
   */
  function SignUpOf(f: Form, iso: string): (s: SignUp)
    ensures s.phone.None? <==> f.phone == ""
    ensures s.phone.Some? ==> s.phone.value == f.phone
    ensures s.fullName == f.fullName && s.email == f.email && s.birthday == iso && s.gender == f.gender
    ensures s.password == f.password && s.confirmationPassword == f.confirmationPassword
  {
    SignUp(f.fullName, f.email, f.password, f.confirmationPassword, iso, f.gender,
           if f.phone == "" then None else Some(f.phone))
  }

  /** The result of a submission: the form, the storage, the requests sent, and whether the page moved to /dashboard. */
  datatype Submission = Submission(form: Form, store: Store, sent: seq<Request>, navigated: bool)

  /**
   * How the form settles once the registration chain is over: on success
   * the page is left loading while the browser moves on; on failure loading
   * stops and the error's message shows.
   */
  function Settle(f: Form, outcome: Result<Value, Thrown>): (g: Form)
    ensures outcome.Ok? ==> g == f.(isLoading := true, errorMessage := "")
    ensures outcome.Err? ==> g == f.(isLoading := false, errorMessage := Message(outcome.error))
  {
    match outcome
    case Ok(_) => f.(isLoading := true, errorMessage := "")
    case Err(e) => f.(isLoading := false, errorMessage := Message(e))
  }

  /**
   * `handleSubmit` of step 1. `iso` is what `new Date(birthday).toISOString()`
   * produced, `None` when it threw; `regReply`/`loginReply` are the server's
   * answers to the registration and the login that follows it.
   */
  ghost function Submit(env: Env, st: Store, f: Form, iso: Option<string>, regReply: FetchReply, loginReply: FetchReply): (r: Submission)
    ensures r.form.touchedOrg == OrgFields
    ensures !OrgValid(f) ==> r == Submission(f.(touchedOrg := OrgFields), st, [], false)
    ensures OrgValid(f) && iso.None? ==>
      r == Submission(Settle(f.(touchedOrg := OrgFields), Err(RangeError)), st, [], false)
    ensures OrgValid(f) && iso.Some? ==>
      var c := RegisterWithOrganization(env, st, SignUpOf(f, iso.value), regReply, loginReply);
      r == Submission(Settle(f.(touchedOrg := OrgFields), c.result), c.store, c.sent, c.result.Ok?)
  {
    var touched := f.(touchedOrg := OrgFields);
    if !OrgValid(f) then Submission(touched, st, [], false)
    else
      match iso
      case None => Submission(Settle(touched, Err(RangeError)), st, [], false)
      case Some(date) =>
        var c := RegisterWithOrganization(env, st, SignUpOf(f, date), regReply, loginReply);
        Submission(Settle(touched, c.result), c.store, c.sent, c.result.Ok?)
  }

  /** A failed registration never logs in and never moves on; a successful one has logged in. */
  lemma SubmitLogsInOnlyAfterRegistering(env: Env, st: Store, f: Form, iso: string, regReply: FetchReply, loginReply: FetchReply)
    requires OrgValid(f)
    ensures var r := Submit(env, st, f, Some(iso), regReply, loginReply);
      && (|r.sent| == 2 <==> regReply.Response? && IsOk(regReply.status))
      && (r.navigated ==> |r.sent| == 2)
      && (!r.navigated ==> !r.form.isLoading)
  {
  }

  /**
   * The organization typed on step 1 never reaches the server: the
   * registration body carries no organization field, whatever the form holds.
   */
  lemma OrganizationNotSent(env: Env, st: Store, f: Form, iso: string, regReply: FetchReply, loginReply: FetchReply)
    requires OrgValid(f)
    ensures var r := Submit(env, st, f, Some(iso), regReply, loginReply);
      && |r.sent| >= 1
      && r.sent[0].body.Some? && r.sent[0].body.value.JObj?
      && Get(r.sent[0].body.value.fields, "organizationName").None?
      && Get(r.sent[0].body.value.fields, "organizationId").None?
  {
    var body := SignUpJson(SignUpOf(f, iso));
    SignUpJsonKeys(SignUpOf(f, iso));
    assert "organizationName" !in SignUpKeys && "organizationId" !in SignUpKeys;
  }
}

=== FILE: session.dfy ===
/**
 * The persisted session: `localStorage` holding the access token, the
 * refresh token and the cached user profile, plus the runtime facts the
 * client branches on (browser or server, production build, configured URL).
 */
module Session {
  import opened Wrappers
  import opened Text
  import opened Json

  /**
   * The runtime: whether `window` exists, whether `NODE_ENV` is
   * "production", and the value of `NEXT_PUBLIC_API_URL` if it is set.
   */
  datatype Env = Env(browser: bool, production: bool, apiUrlVar: Option<string>)

  /** The contents of `localStorage`. */
  type Store = map<string, string>

  const TokenKey := "token"
  const RefreshKey := "refreshToken"
  const UserKey := "user"
  const SessionKeys: set<string> := {TokenKey, RefreshKey, UserKey}

  /** `localStorage.getItem(key)`; on the server there is no storage and every read is null. */
  function GetItem(env: Env, st: Store, key: string): Option<string> {
    if env.browser && key in st then Some(st[key]) else None
  }

  /** `localStorage.setItem(key, value)`; a no-op on the server. */
  function SetItem(env: Env, st: Store, key: string, value: string): Store {
    if env.browser then st[key := value] else st
  }

  /** `localStorage.removeItem(key)`; a no-op on the server. */
  function RemoveItem(env: Env, st: Store, key: string): Store {
    if env.browser then st - {key} else st
  }

  /** A JavaScript string value read as a condition (`if (s)`): present and non-empty. */
  predicate Filled(o: Option<string>) {
    o.Some? && o.value != ""
  }

  /** `getToken()`. */
  function GetToken(env: Env, st: Store): Option<string> {
    GetItem(env, st, TokenKey)
  }

  /** `st` and `r` agree on every key other than `key`. */
  predicate SameExcept(st: Store, r: Store, key: string) {
    && (forall k :: k in st && k != key ==> k in r && r[k] == st[k])
    && (forall k :: k in r && k != key ==> k in st)
  }

  /** The text `saveToken` stores: the first occurrence of "Bearer " removed, wherever it is. */
  function StripBearer(token: string): string {
    ReplaceFirst(token, "Bearer ", "")
  }

  /** `saveToken(token)`. */
  function SaveToken(env: Env, st: Store, token: string): (r: Store)
    ensures !env.browser ==> r == st
    ensures env.browser ==> TokenKey in r && SameExcept(st, r, TokenKey)
    ensures env.browser && IndexOf(token, "Bearer ").None? ==> r[TokenKey] == token
    ensures env.browser && IndexOf(token, "Bearer ").Some? ==> |r[TokenKey]| == |token| - 7
  {
    SetItem(env, st, TokenKey, StripBearer(token))
  }

  /** A token sent as "Bearer t" is stored as t. */
  lemma SaveTokenStripsScheme(env: Env, st: Store, t: string)
    requires env.browser
    ensures SaveToken(env, st, "Bearer " + t)[TokenKey] == t
  {
    ReplaceLeadingOccurrence("Bearer ", t);
  }

  /**
   * Persisting the token headers of a response: a non-empty `Authorization`
   * through `saveToken`, then a non-empty `RefreshToken` through
   * `saveRefreshToken`.
   */
  function SaveTokenHeaders(env: Env, st: Store, headers: map<string, string>): (r: Store)
    ensures !Filled(HeaderValue(headers, "Authorization")) && !Filled(HeaderValue(headers, "RefreshToken")) ==> r == st
    ensures env.browser && Filled(HeaderValue(headers, "RefreshToken")) ==>
      RefreshKey in r && r[RefreshKey] == headers["RefreshToken"]
    ensures env.browser && Filled(HeaderValue(headers, "Authorization")) ==>
      TokenKey in r && r[TokenKey] == StripBearer(headers["Authorization"])
    ensures !Filled(HeaderValue(headers, "Authorization")) ==> (TokenKey in r <==> TokenKey in st) && (TokenKey in r ==> r[TokenKey] == st[TokenKey])
    ensures !Filled(HeaderValue(headers, "RefreshToken")) ==> (RefreshKey in r <==> RefreshKey in st) && (RefreshKey in r ==> r[RefreshKey] == st[RefreshKey])
    ensures forall k :: k != TokenKey && k != RefreshKey ==> (k in r <==> k in st) && (k in r ==> r[k] == st[k])
    ensures !env.browser ==> r == st
  {
    var auth := HeaderValue(headers, "Authorization");
    var refresh := HeaderValue(headers, "RefreshToken");
    var st1 := if Filled(auth) then SaveToken(env, st, auth.value) else st;
    if Filled(refresh) then SaveRefreshToken(env, st1, refresh.value) else st1
  }

  /** Capturing the same headers twice stores what capturing them once does. */
  lemma SaveTokenHeadersIdempotent(env: Env, st: Store, headers: map<string, string>)
    ensures SaveTokenHeaders(env, SaveTokenHeaders(env, st, headers), headers) == SaveTokenHeaders(env, st, headers)
  {
  }

  /**
   * `headers.get(name)` on response headers. `Headers.get` matches names
   * without regard to case; a header map here is keyed by the names the
   * client asks for, so each entry stands for whichever spelling arrived.
   */
  function HeaderValue(headers: map<string, string>, name: string): Option<string> {
    if name in headers then Some(headers[name]) else None
  }

  /** `saveRefreshToken(value)`: the value is stored verbatim. */
  function SaveRefreshToken(env: Env, st: Store, value: string): (r: Store)
    ensures !env.browser ==> r == st
    ensures env.browser ==> RefreshKey in r && r[RefreshKey] == value && SameExcept(st, r, RefreshKey)
  {
    SetItem(env, st, RefreshKey, value)
  }

  /** `saveUser(user)`: the profile is stored as its JSON text. */
  ghost function SaveUser(env: Env, st: Store, user: Value): (r: Store)
    ensures !env.browser ==> r == st
    ensures env.browser ==> UserKey in r && r[UserKey] == Stringify(user) && SameExcept(st, r, UserKey)
  {
    SetItem(env, st, UserKey, Stringify(user))
  }

  /** `clearSession()`: exactly the three session keys are removed. */
  function ClearSession(env: Env, st: Store): (r: Store)
    ensures !env.browser ==> r == st
    ensures env.browser ==> forall k :: k in r <==> k in st && k !in SessionKeys
    ensures forall k :: k in r ==> k in st && r[k] == st[k]
  {
    RemoveItem(env, RemoveItem(env, RemoveItem(env, st, TokenKey), RefreshKey), UserKey)
  }

  /**
   * The headers an authenticated JSON request carries: the JSON content type
   * always, and `Authorization: Bearer <token>` exactly when a non-empty
   * token is stored.
   */
  function BearerHeaders(env: Env, st: Store): (h: map<string, string>)
    ensures "Content-Type" in h && h["Content-Type"] == "application/json"
    ensures "Authorization" in h <==> Filled(GetToken(env, st))
    ensures "Authorization" in h ==> h["Authorization"] == "Bearer " + GetToken(env, st).value
    ensures forall k :: k in h ==> k == "Content-Type" || k == "Authorization"
  {
    var token := GetToken(env, st);
    var base: map<string, string> := map["Content-Type" := "application/json"];
    if Filled(token) then base["Authorization" := "Bearer " + token.value] else base
  }

  /** No session key is left in the store. */
  predicate Cleared(st: Store) {
    TokenKey !in st && RefreshKey !in st && UserKey !in st
  }

  lemma ClearSessionClears(env: Env, st: Store)
    requires env.browser
    ensures Cleared(ClearSession(env, st))
  {
  }
}

=== FILE: text.dfy ===
/**
 * String helpers the client relies on, restricted to ASCII: the whitespace
 * class of JavaScript regular expressions and `String.prototype.trim`,
 * upper-casing, prefix tests and first-occurrence replacement.
 */
module Text {
  import opened Wrappers

  /** ASCII members of JavaScript's `\s` class and of the characters `trim` removes. */
  predicate IsSpace(c: char) {
    c == ' ' || c == '\t' || c == '\n' || c == '\U{000B}' || c == '\U{000C}' || c == '\r'
  }

  predicate AllSpace(s: string) {
    forall i :: 0 <= i < |s| ==> IsSpace(s[i])
  }

  predicate NoSpace(s: string) {
    forall i :: 0 <= i < |s| ==> !IsSpace(s[i])
  }

  /** `s` with its leading whitespace removed: a suffix of `s`. */
  function TrimStart(s: string): (r: string)
    ensures |r| <= |s| && r == s[|s| - |r|..]
    ensures AllSpace(s[..|s| - |r|])
    ensures r == [] || !IsSpace(r[0])
  {
    if |s| > 0 && IsSpace(s[0]) then
      var r := TrimStart(s[1..]);
      var k := |s| - |r|;
      assert s[1..][k - 1..] == s[k..];
      assert forall i :: 1 <= i < k ==> s[..k][i] == s[1..][..k - 1][i - 1];
      r
    else s
  }

  /** `s` with its trailing whitespace removed: a prefix of `s`. */
  function TrimEnd(s: string): (r: string)
    ensures |r| <= |s| && r == s[..|r|]
    ensures AllSpace(s[|r|..])
    ensures r == [] || !IsSpace(r[|r| - 1])
  {
    if |s| > 0 && IsSpace(s[|s| - 1]) then TrimEnd(s[..|s| - 1]) else s
  }

  /** `t` sits at index `i` of `s` with only whitespace before and after it. */
  predicate StripsAt(s: string, t: string, i: nat) {
    i + |t| <= |s| && t == s[i..i + |t|] && AllSpace(s[..i]) && AllSpace(s[i + |t|..])
  }

  /** `t` is `s` with some run of whitespace taken off each end. */
  ghost predicate Strips(s: string, t: string) {
    exists i: nat :: StripsAt(s, t, i)
  }

  /** JavaScript's `s.trim()` over ASCII whitespace. */
  function Trim(s: string): (t: string)
    ensures |t| <= |s|
    ensures Strips(s, t)
    ensures t == [] || (!IsSpace(t[0]) && !IsSpace(t[|t| - 1]))
    ensures t == [] <==> AllSpace(s)
  {
    var a := TrimStart(s);
    var t := TrimEnd(a);
    TrimSplit(s, a, t);
    t
  }

  /** The two halves of `Trim` compose: leading whitespace, then `t`, then trailing whitespace. */
  lemma TrimSplit(s: string, a: string, t: string)
    requires |a| <= |s| && a == s[|s| - |a|..] && AllSpace(s[..|s| - |a|])
    requires |t| <= |a| && t == a[..|t|] && AllSpace(a[|t|..])
    ensures StripsAt(s, t, |s| - |a|)
    ensures t == [] ==> AllSpace(s)
  {
    var i := |s| - |a|;
    assert s[i..i + |t|] == t;
    assert s[i + |t|..] == a[|t|..];
    if t == [] {
      assert forall k :: 0 <= k < |s| ==> (k < i ==> s[k] == s[..i][k]) && (k >= i ==> s[k] == a[k - i]);
    }
  }

  /** Trimming removes nothing from a string that starts and ends with a non-space. */
  lemma TrimIdentity(s: string)
    requires s == [] || (!IsSpace(s[0]) && !IsSpace(s[|s| - 1]))
    ensures Trim(s) == s
  {
  }

  /** What `StripsAt` says of each index of `s`. */
  lemma StripsAtPointwise(s: string, t: string, i: nat)
    requires StripsAt(s, t, i)
    ensures forall k :: 0 <= k < i ==> IsSpace(s[k])
    ensures forall k :: i <= k < i + |t| ==> s[k] == t[k - i]
    ensures forall k :: i + |t| <= k < |s| ==> IsSpace(s[k])
  {
    assert forall k :: 0 <= k < i ==> s[k] == s[..i][k];
    assert forall k :: i + |t| <= k < |s| ==> s[k] == s[i + |t|..][k - i - |t|];
  }

  /** Two strippings of the same text whose results are empty or have non-space ends coincide. */
  lemma StripsAtUnique(s: string, t: string, i: nat, u: string, j: nat)
    requires StripsAt(s, t, i) && StripsAt(s, u, j)
    requires t == [] || (!IsSpace(t[0]) && !IsSpace(t[|t| - 1]))
    requires u == [] || (!IsSpace(u[0]) && !IsSpace(u[|u| - 1]))
    ensures t == u
  {
    StripsAtPointwise(s, t, i);
    StripsAtPointwise(s, u, j);
    if t != [] && u != [] {
      assert s[i] == t[0] && s[j] == u[0];
      assert i == j;
      assert s[i + |t| - 1] == t[|t| - 1] && s[j + |u| - 1] == u[|u| - 1];
      assert |t| == |u|;
      assert forall k :: 0 <= k < |t| ==> t[k] == s[i + k] == u[k];
    }
  }

  /** With non-space ends, the stripped text is unique: `Trim` is the only such result. */
  lemma TrimUnique(s: string, t: string)
    requires Strips(s, t)
    requires t == [] || (!IsSpace(t[0]) && !IsSpace(t[|t| - 1]))
    ensures t == Trim(s)
  {
    var u := Trim(s);
    var i: nat :| StripsAt(s, t, i);
    var j: nat :| StripsAt(s, u, j);
    StripsAtUnique(s, t, i, u, j);
  }

  /**
   * `s.length`: the number of UTF-16 code units, two for a character outside
   * the Basic Multilingual Plane and one for any other.
   */
  function Utf16Length(s: string): (n: nat)
    ensures |s| <= n <= 2 * |s|
    ensures (forall i :: 0 <= i < |s| ==> (s[i] as int) < 0x1_0000) ==> n == |s|
  {
    if s == [] then 0
    else Utf16Length(s[..|s| - 1]) + (if (s[|s| - 1] as int) < 0x1_0000 then 1 else 2)
  }

  /** Lengths add up over concatenation. */
  lemma {:induction false} Utf16LengthAppend(a: string, b: string)
    ensures Utf16Length(a + b) == Utf16Length(a) + Utf16Length(b)
  {
    if b != [] {
      assert (a + b)[..|a + b| - 1] == a + b[..|b| - 1];
      Utf16LengthAppend(a, b[..|b| - 1]);
    } else {
      assert a + b == a;
    }
  }

  /** A character outside the Basic Multilingual Plane counts twice: three emoji have length 6. */
  lemma Utf16LengthOfEmoji()
    ensures Utf16Length("\U{1F600}\U{1F600}\U{1F600}") == 6
    ensures |"\U{1F600}\U{1F600}\U{1F600}"| == 3
  {
    var e := "\U{1F600}";
    assert "\U{1F600}\U{1F600}\U{1F600}" == e + e + e;
    Utf16LengthAppend(e + e, e);
    Utf16LengthAppend(e, e);
  }

  /** ASCII `toUpperCase` of one character. */
  function UpperChar(c: char): (u: char)
    ensures 'a' <= c <= 'z' ==> 'A' <= u <= 'Z' && u as int == c as int - 32
    ensures !('a' <= c <= 'z') ==> u == c
  {
    if 'a' <= c <= 'z' then (c as int - 32) as char else c
  }

  /** ASCII `s.toUpperCase()`. */
  function Upper(s: string): (u: string)
    ensures |u| == |s|
    ensures forall i :: 0 <= i < |s| ==> u[i] == UpperChar(s[i])
  {
    seq(|s|, i requires 0 <= i < |s| => UpperChar(s[i]))
  }

  /** `s.startsWith(p)`. */
  predicate StartsWith(s: string, p: string) {
    |p| <= |s| && s[..|p|] == p
  }

  /** `pat` occurs in `s` at index `i`. */
  predicate OccursAt(s: string, pat: string, i: nat) {
    i + |pat| <= |s| && s[i..i + |pat|] == pat
  }

  /** `s.indexOf(pat)`: the first index where `pat` occurs, if any. */
  function IndexOf(s: string, pat: string): (r: Option<nat>)
    ensures r.Some? ==> OccursAt(s, pat, r.value)
    ensures r.Some? ==> forall j: nat :: j < r.value ==> !OccursAt(s, pat, j)
    ensures r.None? ==> forall j: nat :: !OccursAt(s, pat, j)
  {
    if |pat| > |s| then None
    else if s[..|pat|] == pat then Some(0)
    else
      match IndexOf(s[1..], pat)
      case None =>
        assert forall j: nat :: j > 0 ==> OccursAt(s, pat, j) ==> OccursAt(s[1..], pat, j - 1);
        None
      case Some(k) =>
        assert forall j: nat :: 0 < j <= k ==> OccursAt(s, pat, j) ==> OccursAt(s[1..], pat, j - 1);
        assert OccursAt(s, pat, k + 1) by { assert s[k + 1..k + 1 + |pat|] == s[1..][k..k + |pat|]; }
        Some(k + 1)
  }

  /** `s.replace(pat, rep)` with a string pattern: only the first occurrence is replaced. */
  function ReplaceFirst(s: string, pat: string, rep: string): (r: string)
    ensures (forall j: nat :: !OccursAt(s, pat, j)) ==> r == s
    ensures forall i: nat :: OccursAt(s, pat, i) && (forall j: nat :: j < i ==> !OccursAt(s, pat, j)) ==>
      r == s[..i] + rep + s[i + |pat|..]
  {
    match IndexOf(s, pat)
    case None => s
    case Some(i) => s[..i] + rep + s[i + |pat|..]
  }

  /** Replacing a prefix that is the first occurrence leaves exactly the rest. */
  lemma ReplaceLeadingOccurrence(pat: string, rest: string)
    ensures ReplaceFirst(pat + rest, pat, "") == rest
  {
    assert OccursAt(pat + rest, pat, 0) by { assert (pat + rest)[..|pat|] == pat; }
  }
}

=== FILE: wrappers.dfy ===
/** Optional and fallible values shared by every module of the model. */
module Wrappers {

  /** A value that may be absent: JavaScript's `undefined`/`null` results. */
  datatype Option<+T> = None | Some(value: T) {

    /** The wrapped value, or `default` when absent (JavaScript's `??`). */
    function GetOr(default: T): T {
      match this
      case Some(v) => v
      case None => default
    }
  }

  /** The outcome of an operation that either returns a value or throws. */
  datatype Result<+R, +E> = Ok(value: R) | Err(error: E)
}
